=== FILE: README.md ===
# gcal-sync in Dafny

gcal-sync copies a private Google Calendar into a business calendar as
anonymous "ブロック" (busy) placeholders. This project models its core in
Dafny and proves properties of the model.

**The transform.** Each source event either yields no placeholder, or
yields one whose start and end are padded by some minutes. The model has
four variants of this transform:

- `Calendar.NewEvent` (calendar/calendar.go): first-match regex rules, otherwise ±30 minutes.
- `MainApp.GetEventTime` / `MainApp.SyncEvent` (main.go): a location means ±30 minutes; otherwise the first matching rule; otherwise the source strings unchanged.
- `NaiveNotify.NewEvent` (cmd/naive/qiita/notify.go): ±30 minutes only for events with a location.
- `FunctionDo.Block` (function.go): no status check; only a matching rule moves the times.

**What the transforms rely on** (modules `GoTime` and `Civil`):

- Go's `time.Time`, modelled as an instant in nanoseconds since 0001-01-01Z plus a fixed offset. This is what `time.Parse` returns when the process zone is UTC or has no daylight-saving changes (see "## Left out").
- `Add` with an int64 `time.Duration`, with the wrap-around written out.
- `Weekday`.
- The codec for the layout `2006-01-02T15:04:05-07:00`. This is the date-time profile of section 5.6 of RFC 3339.
- The proleptic Gregorian calendar behind them.

**The state machines** (module `Cloud`):

- The single Firestore document `calendar/channel`, which holds both the sync token and the watch channel.
- The replies of the Calendar API, as an `Env` record.
- Each pass returns a `Run`: its outcome, the document afterwards, and the calls it issued in order.
- On top of these: `readToken`/`saveToken`, `SyncInitial`, `Sync`, `RenewWatch`, main.go's `Do` and `OnNotify`, and the "sync" short-circuit of the naive handler.
- `log.Fatalf` and runtime panics are the outcome `Aborted`. A returned error is `Failed`.

**Module `Scenarios`** works concrete cases through the whole stack. One is a one-hour Monday meeting in +09:00. Another is an event whose times do not parse, which is read as the zero time.

## Model

| member | source | states |
|---|---|---|
| Events.FirstMatch | calendar/calendar.go:205-213 | The rule chosen matches the summary, and every earlier rule does not. None means no rule matches. |
| Events.FirstMatchIgnoresLaterRules | calendar/calendar.go:205-213 | Once rule i matches and no earlier rule does, the rules after i can be replaced by anything without changing the choice, because the loop breaks at i. |
| Events.PaddedReadsBack | calendar/calendar.go:219-227 | A placeholder written by the transform reads back as exactly the source instants moved by the pad. Each time keeps its source offset, when the process zone has no daylight-saving changes. |
| GoTime.AddMinutes | calendar/calendar.go:319-321 | `add` keeps the zone. Within the int64 range of time.Duration it moves the instant by exactly the given number of minutes. |
| GoTime.DurationWrapsBeyondRange | calendar/calendar.go:319-321 | One minute past 153722867 minutes, the product time.Duration(offset)*time.Minute wraps to a negative duration. |
| GoTime.WeekdayRepeatsWeekly | calendar/calendar.go:199-203 | The weekday is periodic: any whole number of weeks later it is the same weekday. |
| GoTime.WeekdayStepsDaily | calendar/calendar.go:199-203 | One day later it is the next weekday: Friday is followed by Saturday, Saturday by Sunday, Sunday by Monday. |
| GoTime.Parse | calendar/calendar.go:197-198 | time.Parse accepts exactly the well-shaped strings whose fields are in range, and the parsed time carries the offset written. |
| GoTime.ParseReadsFields | calendar/calendar.go:197-198 | The wall clock of a parsed time, in its own offset, reads exactly the date, time and offset written in the string. |
| GoTime.ParseOrZero | calendar/calendar.go:197-203 | A string that does not parse reads as a time at local second 0, which is a Monday. So the weekend check never excludes an event whose times do not parse. |
| GoTime.FormattableYear | calendar/calendar.go:222-225 | A time in the local day range the round trip assumes has a year Format writes with four digits, 0 to 9999. |
| GoTime.ParseFormat | calendar/calendar.go:222-225 | Parsing what Format wrote gives back the same instant and offset, for any time in the four-digit-year range. |
| GoTime.FormatParse | calendar/calendar.go:197-198 | Formatting a parsed string reproduces it byte for byte when its offset is canonical: minutes below 60 and no "-00:00". |
| GoTime.NegativeZeroOffsetIsRewritten | calendar/calendar.go:197-198 | "-00:00" is accepted on input, but Format writes the same instant back with "+00:00". |
| Civil.EpochIsJanuaryFirstYearOne | calendar/calendar.go:222-225 | Day number 0, the zero time's day, is the date 0001-01-01, which anchors the calendar at Go's epoch. |
| Civil.CivilFromDayNumber | calendar/calendar.go:222-225 | The date Format derives from a day number is the date with that day number, so day numbers and valid dates correspond one to one. |
| Calendar.NewEvent | calendar/calendar.go:188-203 | There is a placeholder exactly when the event is confirmed, not all-day, and neither its start nor its end is on a Saturday or Sunday in its own offset. Its summary is "ブロック". |
| Calendar.NewEventReadsBack | calendar/calendar.go:205-227 | The placeholder holds the source instants moved by the chosen pad. The offsets are the source offsets, when the process zone has no daylight-saving changes. |
| Calendar.NewEventFirstRule | calendar/calendar.go:205-213 | The first matching rule's start and end offsets are applied, and rules after it are never consulted. |
| Calendar.NewEventDefaultPad | calendar/calendar.go:214-218 | With no matching rule the placeholder runs from 30 minutes before the start to 30 minutes after the end. |
| Calendar.ReadToken | calendar/calendar.go:150-157 | A failed Get, or a missing document, is an error. A missing or non-string field reads as "". |
| Calendar.SaveToken | calendar/calendar.go:159-171 | An empty token is refused with no store call. Otherwise exactly one Update writes the token and every other field is kept. |
| Calendar.SaveThenRead | calendar/calendar.go:150-171 | After a successful saveToken, readToken returns the saved token. |
| Calendar.SyncInitial | calendar/calendar.go:98-110 | The pass lists from now and stores the returned token, or fails on an empty one. It never inserts. |
| Calendar.Sync | calendar/calendar.go:112-148 | The token write comes before every insert. An empty stored token fails right after the Get, with no listing. A pass that fails leaves the store as it was and inserts nothing. |
| Calendar.SyncStoresListedToken | calendar/calendar.go:122-129 | A pass that does not fail (it lists, stores the token, and then completes or is ended by an insert) has stored the listed token before it handles any item. |
| Calendar.SyncInsertsTargets | calendar/calendar.go:135-146 | A completed pass inserts exactly the placeholders of the listed items, in order, and collects the ids the inserts return. |
| Calendar.SyncEmptyListing | calendar/calendar.go:131-134 | An empty change list is a success that only moves the token. |
| Calendar.InitialThenSync | calendar/calendar.go:98-122 | After the bootstrap, the next pass lists from exactly the token the bootstrap listing returned. |
| Calendar.RenewWatch | calendar/calendar.go:280-317 | Covers every branch. The new channel is watched first. A failed Get returns right after the watch, with no Set and no stop. A missing channel field panics before any write. The new record replaces the document before the old channel is stopped. A failed stop is reported as an error, but the store already holds the new record. |
| Calendar.RenewWatchOrdering | calendar/calendar.go:298-316 | The Set comes before the stop. A failed Set leaves both the store and the old channel untouched. |
| Calendar.RenewalErasesSyncToken | calendar/calendar.go:299-303 | A successful renewal removes nextSyncToken from the document, and the next Sync fails on the empty token (see Findings). |
| Calendar.RenewWatchMerged | calendar/calendar.go:280-317 | Renewal with the channel record merged into the document. It keeps RenewWatch's order of calls, and its store changes only on success or a failed stop. |
| Calendar.MergedRenewalKeepsSyncToken | calendar/calendar.go:299-303 | With the channel record merged into the document, the token survives renewal and the next Sync resumes from it. |
| MainApp.GetEventTime | main.go:208-224 | The start is "" exactly for excluded events: not confirmed, all-day, or on a weekend. With no pad, the source strings are returned. |
| MainApp.GetEventTimeReadsBack | main.go:226-235 | Padded times read back as the source instants moved by the pad. |
| MainApp.LocationTakesPrecedence | main.go:226-228 | With a location, the result is ±30 minutes whatever the rules and the matcher are. |
| MainApp.FirstRuleWithoutLocation | main.go:229-235 | Without a location, the first matching rule's offsets apply and later rules are never consulted. |
| MainApp.NoMatchKeepsSourceStrings | main.go:237 | Without a location or a match, the source strings come back byte for byte. |
| MainApp.SyncEvent | main.go:185-199 | There is a placeholder exactly when getEventTime gives a non-empty start. It carries getEventTime's strings and the summary "ブロック". |
| MainApp.AgreesWithCalendarWithoutLocation | main.go:208-237 | For events without a location, main.go and calendar/calendar.go exclude the same events and agree whenever a rule matches. |
| MainApp.StartToken | main.go:134-151 | The starting token is the stored one only when the token is said to exist. Otherwise it is the token of a fresh "from now" listing. |
| MainApp.Do | main.go:133-183 | The first call is Get or the "from now" listing. Neither is repeated later. The token write comes before every insert. A failed pass leaves the store as it was and inserts nothing. A pass that does not fail leaves the listed token stored. |
| MainApp.DoRunsPass | main.go:133-183 | Once the starting token is known, Do is exactly the pass from that token, after the one call that obtained it. |
| MainApp.Pass | main.go:153-182 | A failed pass leaves the store as it was and inserts nothing. A completed pass is the listing, then the token write, then the batch of inserts, and it answers with the ids joined by ", ". |
| MainApp.BootstrapUnlessExists | main.go:94 | A notification lists "from now" exactly when its resource state is missing or not "exists". Only an "exists" notification reads the store. |
| MainApp.PassReturnsIdsInItemOrder | main.go:171-182 | A completed pass inserts exactly the listed items' placeholders, in order. It answers with the ids the inserts created, in that order. |
| MainApp.DoEmptyListing | main.go:167-170 | With no changed items, the pass stores the token and answers "". |
| NaiveNotify.NewEvent | cmd/naive/qiita/notify.go:62-78 | There is a placeholder exactly for confirmed, timed events with weekday start and end. Its summary is "ブロック". |
| NaiveNotify.LocationPadsHalfHour | cmd/naive/qiita/notify.go:80-84 | With a location, the times are the source instants moved by −30 and +30 minutes. The offset is the source offset, when the process zone has no daylight-saving changes. |
| NaiveNotify.NoLocationOnlyReformats | cmd/naive/qiita/notify.go:85-86 | Without a location, the times are only re-formatted. Canonical source strings come back unchanged. |
| NaiveNotify.OnNotify | cmd/naive/qiita/notify.go:30-60 | The handler never touches the store and never returns an error. A failed call ends in a nil dereference. |
| NaiveNotify.SyncStateOnlyLists | cmd/naive/qiita/notify.go:37-44 | A "sync" notification issues only the "from now" listing. Any other lists with the empty token and never from now. |
| NaiveNotify.NotifyInsertsTargets | cmd/naive/qiita/notify.go:46-57 | A completed non-"sync" notification inserts exactly the listed items' placeholders, in order. |
| FunctionDo.Block | function.go:100-116 | There is a placeholder exactly for timed events with weekday start and end, whatever their status. With no matching rule, it keeps the source times. |
| FunctionDo.BlockFirstRule | function.go:118-127 | The first matching rule replaces both times with the padded ones. Later rules are never consulted. |
| FunctionDo.StatusIgnored | function.go:100-116 | Changing the status never changes the prototype's placeholder. |
| FunctionDo.AgreesWithCalendarOnMatch | function.go:118-127 | For a confirmed event that some rule matches, the prototype and calendar/calendar.go build the same placeholder. |
| FunctionDo.Do | function.go:81-104 | The run lists from now, never returns an error, and panics on Items[0] when the listing is empty. It issues at most one insert. |
| FunctionDo.DoBlocksFirstItem | function.go:100-133 | Do blocks Items[0] only. After the listing it inserts that event's placeholder, and nothing at all when the event is all-day or on a weekend. |
| FunctionDo.EmptyListingPanics | function.go:88-104 | On an empty listing, Do as written ends in an index-out-of-range panic (see Findings). |
| FunctionDo.DoGuarded | function.go:81-104 | Do with the emptiness check. It lists from now and never panics on the index. |
| FunctionDo.GuardedDoAgrees | function.go:88-104 | The guarded Do completes without inserting on an empty listing. Otherwise it does exactly what Do does. |
| Cloud.InsertAll | calendar/calendar.go:135-146 | The loop issues one insert per placeholder, in item order, and skips items with none. The ids are the successive insert replies. A failed insert stops the loop right after it. |
| Cloud.NoTargetsNoInserts | calendar/calendar.go:173-177 | Items for which the transform yields nothing cause no insert. |
| Cloud.JoinAppend | main.go:182 | strings.Join of a non-empty list with one more part is the old join, the separator, then the new part. |
| Cloud.UpdateField | calendar/calendar.go:163-166 | Firestore Update fails on a missing document. Otherwise it changes only the one field. |
| Scenarios.MondayMeetingDefaultPad | calendar/calendar.go:186-227 | The meeting 2024-06-10T09:00:00+09:00 to 10:00 gets the placeholder 08:30 to 10:30, written in the same layout and offset. |
| Scenarios.MondayMeetingMainApp | main.go:226-237 | main.go returns the same meeting byte for byte without a location, and padded to 08:30 to 10:30 with one. |
| Scenarios.JuneTenthIsMonday | calendar/calendar.go:199-203 | Any time on 2024-06-10 in +09:00 is a Monday. |
| Scenarios.HalfHourBeforeZeroTime | calendar/calendar.go:222-225 | Thirty minutes before the zero time, the wall clock Format writes is 0000-12-31 23:30 in UTC: the calendar runs on through year 0. |
| Scenarios.UnparsableTimesReadAsZeroTime | calendar/calendar.go:197-203 | Times that do not parse are read as the zero time, which is a Monday, so the event is not excluded. Its placeholder starts 30 minutes before 0001-01-01T00:00:00Z. |

Definitions that model a Go call directly; what they mean is stated by the lemmas about them, which have rows above:

- `GoTime.Format`: `t.Format(gcalTimeFormat)` (calendar/calendar.go:222-225).
- `GoTime.WeekdayOf`: `Time.Weekday` (calendar/calendar.go:199-203).
- `Events.Eligible`: the status, all-day and weekend checks of `newEvent` (calendar/calendar.go:189-203).
- `Events.Padded`: `add` followed by `Format` for both times (calendar/calendar.go:219-227, 319-321).
- `Cloud.StringField`: the `.(string)` assertion with its result discarded (calendar/calendar.go:155).
- `Cloud.TokenWrittenBeforeInserts`: saveToken comes before the insert loop (calendar/calendar.go:127-146).
- `MainApp.ExistsSyncToken`: the resource-state test of `OnNotify` (main.go:94).
- `MainApp.OnNotify`: the HTTP handler, reduced to running `Do` with `ExistsSyncToken` of the resource-state header (main.go:90-104). The reply body and status code are left out.
- `FunctionDo.BlockFirst`: the insert of the first event's placeholder, if any, where a failed insert ends the process (function.go:130-133).

## Left out

- OAuth, JWT and service-account setup (`NewCalendarService`, calendar/sa.go, cmd/token/token.go): foreign library calls and file I/O.
- Firestore and Calendar client creation, HTTP handlers and server wiring (`main`, `OnWatch`, `OnStop`, `OnRenew`, response writing), and the CLI wrappers: plumbing. `StartWatch`, `StopWatch` and `newChannel` are left out for the same reason; renewal takes the uuid and the watch reply from `Env`.
- YAML configuration loading (`getConf`): the rules are a parameter.
- Regular expressions: `regexp.MustCompile(p).MatchString(s)` is the parameter `matches`, and a `MustCompile` panic on a bad pattern is not modelled.
- `time.Now`, `uuid.NewRandom` and the fixed channel expiration: environment values taken from `Env` or left out. The "from now" listing is a reply like any other.
- Logging and the printed lines of every pass: no effect on state.
- GoTime.Parse: accepts only the canonical 25-character form. Go's layout parser also takes a one-digit hour and a fractional second; those inputs count as unparsable here.
- GoTime.Parse: models only process zones without daylight-saving changes, such as UTC, or Asia/Tokyo for dates after 1951. Go's `time.Parse` returns a time in `time.Local` when the written offset equals the local offset at that instant, and `Format` then looks the offset up again at the shifted instant. Under America/New_York, "2024-03-08T10:00:00-05:00" moved by +4320 minutes is written by Go as "2024-03-11T11:00:00-04:00", while the model writes "2024-03-11T10:00:00-05:00". Both name the same instant, and the weekday is unaffected. The process zone is an environment setting the code never reads.
- GoTime.Add: does not model Go's saturation at the ends of the int64 seconds range. Those instants are about 292 billion years away from any reachable time.
- Events.Event: models only Start.DateTime and End.DateTime. The Date field of all-day events and the nil Start/End pointers of malformed replies are not represented, since every variant looks only at Start.DateTime to decide.
- FunctionDo.Do: the listing's MaxResults(10) and OrderBy("startTime") are the provider's business. The model takes whatever items the listing returns.
- FunctionDo.Block: when no rule matches, the prototype keeps the source EventDateTime objects. The model keeps only their DateTime strings.
- Calendar.Sync: the ids it collects are logged, not returned. The model returns them in Done so the order can be stated.
- Calendar.RenewWatch: on a failed stop this follows the code. The new channel record is already written, and the error is returned as Failed(StopFailed).

## Findings

| source | as written | input that shows it | evidently intended | confidence | as-written member | corrected member |
|---|---|---|---|---|---|---|
| calendar/calendar.go:299-303 | RenewWatch writes the new channel with Set on calendar/channel, which replaces the whole document, including the nextSyncToken field that Sync reads from the same document | a document {channelId, resourceId, exp, nextSyncToken: "t"}, every call succeeding: afterwards the token is gone and the next Sync fails with "nextSyncToken is empty" | renewal replaces only the channel fields (Set with MergeAll, or Update) and Sync resumes from "t" | medium; not executed | Calendar.RenewalErasesSyncToken | Calendar.RenewWatchMerged |
| function.go:88-104 | after printing "No upcoming events found." Do goes on to read events.Items[0] | a listing that succeeds with no items | return once nothing was found | high; not executed | FunctionDo.EmptyListingPanics | FunctionDo.DoGuarded |

=== FILE: base.dfy ===
/** Small shared wrappers: an optional value, and the three ways a run of
    the service can end. */
module Base {

  datatype Option<+T> = None | Some(value: T)

  /** Why an operation did not complete. */
  datatype Failure =
    | StoreGetFailed        // Firestore Get failed, or the document does not exist
    | StoreUpdateFailed     // Firestore Update failed, or the document does not exist
    | StoreSetFailed        // Firestore Set failed
    | EmptyStoredToken      // the stored nextSyncToken is empty (calendar.go Sync)
    | EmptyTokenRefused     // saveToken was asked to store an empty token
    | ListFailed            // an events list call failed
    | InsertFailed          // an events insert call failed
    | UuidFailed            // uuid.NewRandom failed
    | WatchFailed           // an events watch call failed
    | StopFailed            // a channels stop call failed
    | MissingChannelField   // a type assertion on a stored channel field panicked
    | NilDereference        // a discarded error left a nil pointer that was dereferenced
    | IndexOutOfRange       // a slice was indexed past its end

  /** Completed with a value; returned an error; or stopped the pass
      abruptly: log.Fatalf exits the process, a panic unwinds the caller. */
  datatype Outcome<+T> = Done(value: T) | Failed(failure: Failure) | Aborted(failure: Failure)
}

=== FILE: calendar.dfy ===
/** calendar/calendar.go: the placeholder transform with first-match rules
    and a ±30 minutes default, the sync token kept in Firestore, the
    incremental sync pass, and the renewal of the watch channel. */
module Calendar {
  import opened Base
  import opened GoTime
  import opened Events
  import opened Cloud

  /** `defaultOffset`: minutes added before and after when no rule matches. */
  const DefaultOffset: int := HalfHour

  /** The pad decision of newEvent: the first matching rule's offsets, or
      the symmetric default. */
  function PadFor(summary: string, rules: seq<Rule>, matches: Matcher): Pad {
    match FirstMatch(rules, summary, matches)
    case Some(i) => Pad(rules[i].startOffset, rules[i].endOffset)
    case None => Pad(-DefaultOffset, DefaultOffset)
  }

  /** `newEvent`: None for non-confirmed, all-day and weekend events (the
      three checks of Eligible, made in that order); otherwise a "ブロック"
      placeholder padded by PadFor. */
  function NewEvent(src: Event, rules: seq<Rule>, matches: Matcher): (r: Option<Placeholder>)
    ensures r.Some? <==> Eligible(src)
    ensures r.Some? ==> r.value.summary == BlockSummary
  {
    if !Eligible(src) then None
    else Some(Padded(src, PadFor(src.summary, rules, matches)))
  }

  /** Read back, the placeholder holds the source instants moved by the pad,
      in the source offsets. */
  lemma NewEventReadsBack(src: Event, rules: seq<Rule>, matches: Matcher)
    requires Eligible(src)
    requires Representable(src, PadFor(src.summary, rules, matches))
    ensures NewEvent(src, rules, matches).Some?
    ensures var pad := PadFor(src.summary, rules, matches);
      && Parse(NewEvent(src, rules, matches).value.start) == Some(Shifted(ParseOrZero(src.start), pad.before))
      && Parse(NewEvent(src, rules, matches).value.end) == Some(Shifted(ParseOrZero(src.end), pad.after))
    ensures Parse(NewEvent(src, rules, matches).value.start).value.offset == ParseOrZero(src.start).offset
    ensures Parse(NewEvent(src, rules, matches).value.end).value.offset == ParseOrZero(src.end).offset
  {
    PaddedReadsBack(src, PadFor(src.summary, rules, matches));
  }

  /** The first matching rule decides the placeholder, and the rules after
      it are never consulted. */
  lemma NewEventFirstRule(src: Event, rules: seq<Rule>, later: seq<Rule>, matches: Matcher, i: nat)
    requires Eligible(src)
    requires i < |rules| && matches(rules[i].pattern, src.summary)
    requires forall j :: 0 <= j < i ==> !matches(rules[j].pattern, src.summary)
    requires Representable(src, Pad(rules[i].startOffset, rules[i].endOffset))
    ensures NewEvent(src, rules, matches).Some?
    ensures Parse(NewEvent(src, rules, matches).value.start)
            == Some(Shifted(ParseOrZero(src.start), rules[i].startOffset))
    ensures Parse(NewEvent(src, rules, matches).value.end)
            == Some(Shifted(ParseOrZero(src.end), rules[i].endOffset))
    ensures NewEvent(src, rules[..i + 1] + later, matches) == NewEvent(src, rules, matches)
  {
    FirstMatchIgnoresLaterRules(rules, later, src.summary, matches, i);
    assert (rules[..i + 1] + later)[i] == rules[i];
    NewEventReadsBack(src, rules, matches);
  }

  /** Without a matching rule the placeholder spans from 30 minutes before
      the start to 30 minutes after the end. */
  lemma NewEventDefaultPad(src: Event, rules: seq<Rule>, matches: Matcher)
    requires Eligible(src)
    requires forall j :: 0 <= j < |rules| ==> !matches(rules[j].pattern, src.summary)
    requires Representable(src, Pad(-DefaultOffset, DefaultOffset))
    ensures NewEvent(src, rules, matches).Some?
    ensures Parse(NewEvent(src, rules, matches).value.start) == Some(Shifted(ParseOrZero(src.start), -30))
    ensures Parse(NewEvent(src, rules, matches).value.end) == Some(Shifted(ParseOrZero(src.end), 30))
  {
    assert PadFor(src.summary, rules, matches) == Pad(-DefaultOffset, DefaultOffset);
    NewEventReadsBack(src, rules, matches);
  }

  // ------------------------------------------------------------ sync token

  /** `readToken`: the stored nextSyncToken ("" when absent or not a
      string); fails when the Get fails or the document does not exist. */
  function ReadToken(doc: Option<Doc>, env: Env): (r: Outcome<string>)
    ensures r.Done? <==> doc.Some? && !env.getFails
    ensures !r.Done? ==> r == Failed(StoreGetFailed)
    ensures r.Done? && TokenField in doc.value && doc.value[TokenField].Str? ==>
      r.value == doc.value[TokenField].s
    ensures r.Done? && !(TokenField in doc.value && doc.value[TokenField].Str?) ==> r.value == ""
  {
    if doc.None? || env.getFails then Failed(StoreGetFailed)
    else Done(StringField(doc.value, TokenField))
  }

  /** `saveToken`: an empty token is refused without touching the store;
      otherwise the nextSyncToken field is updated and nothing else changes. */
  function SaveToken(doc: Option<Doc>, env: Env, token: string): (r: Run<()>)
    ensures token == "" ==> r == Run(Failed(EmptyTokenRefused), doc, [])
    ensures token != "" ==> r.calls == [UpdateToken(token)]
    ensures r.outcome.Done? <==> token != "" && doc.Some? && !env.updateFails
    ensures token != "" && !r.outcome.Done? ==> r.outcome == Failed(StoreUpdateFailed)
    ensures !r.outcome.Done? ==> r.doc == doc
    ensures r.outcome.Done? ==> r.doc.Some? && r.doc.value.Keys == doc.value.Keys + {TokenField}
    ensures r.outcome.Done? ==> forall k :: k in doc.value && k != TokenField ==> r.doc.value[k] == doc.value[k]
  {
    if token == "" then Run(Failed(EmptyTokenRefused), doc, [])
    else
      match UpdateField(doc, env, TokenField, Str(token))
      case None => Run(Failed(StoreUpdateFailed), doc, [UpdateToken(token)])
      case Some(d) => Run(Done(()), Some(d), [UpdateToken(token)])
  }

  /** A saved token is what the next read returns. */
  lemma SaveThenRead(doc: Option<Doc>, env: Env, token: string, env': Env)
    requires SaveToken(doc, env, token).outcome.Done?
    requires !env'.getFails
    ensures ReadToken(SaveToken(doc, env, token).doc, env') == Done(token)
  {
  }

  /** `SyncInitial`: list from now and keep only the returned token. */
  function SyncInitial(doc: Option<Doc>, env: Env): (r: Run<()>)
    ensures |r.calls| >= 1 && r.calls[0] == ListFromNow
    ensures forall j :: 0 <= j < |r.calls| ==> !r.calls[j].Insert?
    ensures env.listFromNow.None? ==> r == Run(Failed(ListFailed), doc, [ListFromNow])
    ensures env.listFromNow.Some? ==>
      var token := env.listFromNow.value.nextSyncToken;
      && r.calls == [ListFromNow] + (if token == "" then [] else [UpdateToken(token)])
      && (r.outcome.Done? <==> token != "" && doc.Some? && !env.updateFails)
  {
    match env.listFromNow
    case None => Run(Failed(ListFailed), doc, [ListFromNow])
    case Some(listing) =>
      var save := SaveToken(doc, env, listing.nextSyncToken);
      Run(save.outcome, save.doc, [ListFromNow] + save.calls)
  }

  function Transform(rules: seq<Rule>, matches: Matcher): Event -> Option<Placeholder> {
    e => NewEvent(e, rules, matches)
  }

  /** `Sync`: read the token (refusing an empty one), list the changes since
      it, save the new token, then create a placeholder per item. Done
      carries the ids the pass logs as created. */
  function Sync(doc: Option<Doc>, env: Env, rules: seq<Rule>, matches: Matcher): (r: Run<seq<string>>)
    ensures TokenWrittenBeforeInserts(r.calls)
    ensures |r.calls| >= 1 && r.calls[0] == GetDoc
    ensures ReadToken(doc, env) == Done("") ==> r == Run(Failed(EmptyStoredToken), doc, [GetDoc])
    ensures r.outcome.Failed? ==> r.doc == doc
    ensures r.outcome.Failed? ==> forall j :: 0 <= j < |r.calls| ==> !r.calls[j].Insert?
  {
    var read := ReadToken(doc, env);
    if !read.Done? then Run(Failed(StoreGetFailed), doc, [GetDoc])
    else if read.value == "" then Run(Failed(EmptyStoredToken), doc, [GetDoc])
    else
      var token := read.value;
      match env.listSince
      case None => Run(Failed(ListFailed), doc, [GetDoc, ListSince(token)])
      case Some(listing) =>
        var save := SaveToken(doc, env, listing.nextSyncToken);
        var head := [GetDoc, ListSince(token)] + save.calls;
        if !save.outcome.Done? then Run(Failed(save.outcome.failure), save.doc, head)
        else
          var b := InsertAll(listing.items, Transform(rules, matches), env, 0);
          assert head == [GetDoc, ListSince(token)] + [UpdateToken(listing.nextSyncToken)];
          TokenWrittenFirst([GetDoc, ListSince(token)], listing.nextSyncToken, b.calls);
          Run(if b.aborted then Aborted(InsertFailed) else Done(b.ids), save.doc, head + b.calls)
  }

  /** A pass that gets past the listing stores the listed token before any
      item is handled: whether it completes or an insert ends the process,
      the store afterwards holds the new token. */
  lemma SyncStoresListedToken(doc: Option<Doc>, env: Env, rules: seq<Rule>, matches: Matcher)
    requires !Sync(doc, env, rules, matches).outcome.Failed?
    ensures env.listSince.Some?
    ensures ReadToken(Sync(doc, env, rules, matches).doc, env) == Done(env.listSince.value.nextSyncToken)
    ensures ReadToken(doc, env).Done?
    ensures Sync(doc, env, rules, matches).calls[..3]
            == [GetDoc, ListSince(ReadToken(doc, env).value), UpdateToken(env.listSince.value.nextSyncToken)]
  {
  }

  /** The inserts of a completed pass are exactly the placeholders of the
      listed items, in order, and the ids are the insert replies. */
  lemma SyncInsertsTargets(doc: Option<Doc>, env: Env, rules: seq<Rule>, matches: Matcher)
    requires Sync(doc, env, rules, matches).outcome.Done?
    ensures env.listSince.Some?
    ensures var ts := Targets(env.listSince.value.items, Transform(rules, matches));
      var r := Sync(doc, env, rules, matches);
      && r.calls[3..] == Inserts(ts)
      && |r.outcome.value| == |ts|
      && forall j :: 0 <= j < |ts| ==> env.insertReply(j) == Some(r.outcome.value[j])
  {
    var r := Sync(doc, env, rules, matches);
    var b := InsertAll(env.listSince.value.items, Transform(rules, matches), env, 0);
    assert r.calls == [GetDoc, ListSince(ReadToken(doc, env).value), UpdateToken(env.listSince.value.nextSyncToken)] + b.calls;
  }

  /** An empty change list is a successful pass that only moves the token. */
  lemma SyncEmptyListing(doc: Option<Doc>, env: Env, rules: seq<Rule>, matches: Matcher)
    requires ReadToken(doc, env).Done? && ReadToken(doc, env).value != ""
    requires env.listSince.Some? && env.listSince.value.items == []
    requires env.listSince.value.nextSyncToken != "" && !env.updateFails
    ensures Sync(doc, env, rules, matches).outcome == Done([])
    ensures Sync(doc, env, rules, matches).calls
            == [GetDoc, ListSince(ReadToken(doc, env).value), UpdateToken(env.listSince.value.nextSyncToken)]
  {
  }

  /** After the bootstrap, the next pass lists the changes since exactly the
      token the bootstrap listing returned. */
  lemma InitialThenSync(doc: Option<Doc>, env: Env, env': Env, rules: seq<Rule>, matches: Matcher)
    requires SyncInitial(doc, env).outcome.Done?
    requires !env'.getFails
    ensures env.listFromNow.Some?
    ensures Sync(SyncInitial(doc, env).doc, env', rules, matches).calls[..2]
            == [GetDoc, ListSince(env.listFromNow.value.nextSyncToken)]
  {
  }

  // ------------------------------------------------------ channel renewal

  /** The channel record StartWatch and RenewWatch write with Set. */
  function ChannelDoc(channelId: string, reply: WatchReply): Doc {
    map[ChannelIdField := Str(channelId), ResourceIdField := Str(reply.resourceId),
        ExpirationField := Num(reply.expiration)]
  }

  predicate HasChannel(d: Doc) {
    && ChannelIdField in d && d[ChannelIdField].Str?
    && ResourceIdField in d && d[ResourceIdField].Str?
  }

  /** `RenewWatch`: watch with a new channel, read the old record, Set the
      new record over the whole document, then stop the old channel. A
      missing channel field panics in a type assertion before the Set. */
  function RenewWatch(doc: Option<Doc>, env: Env): (r: Run<string>)
    ensures env.uuid.None? ==> r == Run(Failed(UuidFailed), doc, [])
    ensures env.uuid.Some? ==> |r.calls| >= 1 && r.calls[0] == Watch(env.uuid.value)
    ensures env.uuid.Some? && env.watch.None? ==> r == Run(Failed(WatchFailed), doc, [Watch(env.uuid.value)])
    ensures env.uuid.Some? && env.watch.Some? && (doc.None? || env.getFails) ==>
      r == Run(Failed(StoreGetFailed), doc, [Watch(env.uuid.value), GetDoc])
    ensures r.outcome.Done? <==>
      && env.uuid.Some? && env.watch.Some? && doc.Some? && !env.getFails
      && HasChannel(doc.value) && !env.setFails && env.stopSucceeds
    ensures r.outcome.Done? ==> r.outcome.value == ""
    ensures r.outcome == Aborted(MissingChannelField) <==>
      env.uuid.Some? && env.watch.Some? && doc.Some? && !env.getFails && !HasChannel(doc.value)
    ensures r.outcome.Done? || r.outcome == Failed(StopFailed) ==>
      && env.uuid.Some? && env.watch.Some? && doc.Some? && HasChannel(doc.value)
      && r.doc == Some(ChannelDoc(env.uuid.value, env.watch.value))
      && r.calls == [Watch(env.uuid.value), GetDoc, SetDoc(ChannelDoc(env.uuid.value, env.watch.value)),
                     Stop(doc.value[ChannelIdField].s, doc.value[ResourceIdField].s)]
    ensures !(r.outcome.Done? || r.outcome == Failed(StopFailed)) ==> r.doc == doc
  {
    match env.uuid
    case None => Run(Failed(UuidFailed), doc, [])
    case Some(id) =>
      match env.watch
      case None => Run(Failed(WatchFailed), doc, [Watch(id)])
      case Some(reply) =>
        if doc.None? || env.getFails then Run(Failed(StoreGetFailed), doc, [Watch(id), GetDoc])
        else if !HasChannel(doc.value) then Run(Aborted(MissingChannelField), doc, [Watch(id), GetDoc])
        else
          var prev := doc.value;
          var record := ChannelDoc(id, reply);
          var head := [Watch(id), GetDoc, SetDoc(record)];
          if env.setFails then Run(Failed(StoreSetFailed), doc, head)
          else
            var calls := head + [Stop(prev[ChannelIdField].s, prev[ResourceIdField].s)];
            if env.stopSucceeds then Run(Done(""), Some(record), calls)
            else Run(Failed(StopFailed), Some(record), calls)
  }

  /** Renewal never stops the old channel without the new one recorded, and
      a failed Set leaves both the store and the old channel untouched. */
  lemma RenewWatchOrdering(doc: Option<Doc>, env: Env)
    requires env.uuid.Some? && env.watch.Some? && doc.Some? && !env.getFails && HasChannel(doc.value)
    ensures var r := RenewWatch(doc, env);
      && r.calls[..3] == [Watch(env.uuid.value), GetDoc, SetDoc(ChannelDoc(env.uuid.value, env.watch.value))]
      && (env.setFails ==> r.outcome == Failed(StoreSetFailed) && r.doc == doc && |r.calls| == 3)
      && (!env.setFails ==> r.calls[3] == Stop(doc.value[ChannelIdField].s, doc.value[ResourceIdField].s))
  {
  }

  /** Renewal writes the channel record over the document that also holds
      the sync token, so a successful renewal erases the token and the next
      pass refuses to run. */
  lemma RenewalErasesSyncToken(doc: Option<Doc>, env: Env, env': Env, rules: seq<Rule>, matches: Matcher)
    requires RenewWatch(doc, env).outcome.Done?
    requires !env'.getFails
    ensures ReadToken(doc, env).Done? ==> TokenField !in RenewWatch(doc, env).doc.value
    ensures Sync(RenewWatch(doc, env).doc, env', rules, matches).outcome == Failed(EmptyStoredToken)
  {
    assert TokenField !in ChannelDoc(env.uuid.value, env.watch.value);
  }

  /** Renewal with the channel record merged into the document (Set with
      firestore.MergeAll) instead of replacing it. */
  function RenewWatchMerged(doc: Option<Doc>, env: Env): (r: Run<string>)
    ensures r.outcome.Done? ==> r.outcome.value == ""
    ensures r.outcome.Done? || r.outcome == Failed(StopFailed) ==>
      && env.uuid.Some? && env.watch.Some? && doc.Some? && HasChannel(doc.value)
      && r.doc == Some(doc.value + ChannelDoc(env.uuid.value, env.watch.value))
      && r.calls == [Watch(env.uuid.value), GetDoc, SetDoc(doc.value + ChannelDoc(env.uuid.value, env.watch.value)),
                     Stop(doc.value[ChannelIdField].s, doc.value[ResourceIdField].s)]
    ensures !(r.outcome.Done? || r.outcome == Failed(StopFailed)) ==> r.doc == doc
  {
    match env.uuid
    case None => Run(Failed(UuidFailed), doc, [])
    case Some(id) =>
      match env.watch
      case None => Run(Failed(WatchFailed), doc, [Watch(id)])
      case Some(reply) =>
        if doc.None? || env.getFails then Run(Failed(StoreGetFailed), doc, [Watch(id), GetDoc])
        else if !HasChannel(doc.value) then Run(Aborted(MissingChannelField), doc, [Watch(id), GetDoc])
        else
          var prev := doc.value;
          var merged := prev + ChannelDoc(id, reply);
          var head := [Watch(id), GetDoc, SetDoc(merged)];
          if env.setFails then Run(Failed(StoreSetFailed), doc, head)
          else
            var calls := head + [Stop(prev[ChannelIdField].s, prev[ResourceIdField].s)];
            if env.stopSucceeds then Run(Done(""), Some(merged), calls)
            else Run(Failed(StopFailed), Some(merged), calls)
  }

  /** With the merge, the sync token survives renewal and the next pass
      resumes from it. */
  lemma MergedRenewalKeepsSyncToken(doc: Option<Doc>, env: Env, env': Env, rules: seq<Rule>, matches: Matcher)
    requires RenewWatchMerged(doc, env).outcome.Done?
    requires !env.getFails && !env'.getFails
    requires ReadToken(doc, env).Done? && ReadToken(doc, env).value != ""
    ensures ReadToken(RenewWatchMerged(doc, env).doc, env') == ReadToken(doc, env)
    ensures Sync(RenewWatchMerged(doc, env).doc, env', rules, matches).calls[..2]
            == [GetDoc, ListSince(ReadToken(doc, env).value)]
  {
    var d := RenewWatchMerged(doc, env).doc.value;
    assert TokenField !in ChannelDoc(env.uuid.value, env.watch.value);
    assert d[TokenField] == doc.value[TokenField];
  }
}

=== FILE: civil.dfy ===
/** Proleptic Gregorian calendar arithmetic, as Go's time package uses it:
    day numbers count days since 0001-01-01 (day 0, a Monday), and every
    year (including year 0 and negative years) follows the 4/100/400 leap rule. */
module Civil {

  predicate IsLeap(y: int) {
    y % 4 == 0 && (y % 100 != 0 || y % 400 == 0)
  }

  function DaysInYear(y: int): int {
    if IsLeap(y) then 366 else 365
  }

  function DaysInMonth(y: int, m: int): int
    requires 1 <= m <= 12
  {
    if m == 2 then (if IsLeap(y) then 29 else 28)
    else if m == 4 || m == 6 || m == 9 || m == 11 then 30
    else 31
  }

  /** Days of year y that precede the first of month m. */
  function DaysBeforeMonth(y: int, m: int): int
    requires 1 <= m <= 12
  {
    var base :=
      if m == 1 then 0 else if m == 2 then 31 else if m == 3 then 59
      else if m == 4 then 90 else if m == 5 then 120 else if m == 6 then 151
      else if m == 7 then 181 else if m == 8 then 212 else if m == 9 then 243
      else if m == 10 then 273 else if m == 11 then 304 else 334;
    if m > 2 && IsLeap(y) then base + 1 else base
  }

  /** Days from 0001-01-01 up to y-01-01 (negative for years before 1). */
  function DaysBeforeYear(y: int): int {
    var k := y - 1;
    365 * k + k / 4 - k / 100 + k / 400
  }

  datatype Date = Date(year: int, month: int, day: int)

  predicate ValidDate(d: Date) {
    1 <= d.month <= 12 && 1 <= d.day <= DaysInMonth(d.year, d.month)
  }

  /** The day number of a calendar date. */
  function DayNumber(d: Date): int
    requires ValidDate(d)
  {
    DaysBeforeYear(d.year) + DaysBeforeMonth(d.year, d.month) + d.day - 1
  }

  lemma MonthStep(y: int, m: int)
    requires 1 <= m <= 12
    ensures m < 12 ==> DaysBeforeMonth(y, m + 1) == DaysBeforeMonth(y, m) + DaysInMonth(y, m)
    ensures m == 12 ==> DaysBeforeMonth(y, m) + DaysInMonth(y, m) == DaysInYear(y)
  {
  }

  lemma MulAtLeast(c: int, x: int)
    requires 0 < c && 1 <= x
    ensures c * x >= c
  {
  }

  /** Euclidean division is determined by its defining equation. */
  lemma DivUnique(n: int, c: int, q: int, r: int)
    requires 0 < c && 0 <= r < c && n == c * q + r
    ensures n / c == q && n % c == r
  {
    var q', r' := n / c, n % c;
    assert c * q' + r' == n;
    assert c * (q - q') == r' - r;
    if q' < q {
      MulAtLeast(c, q - q');
    } else if q < q' {
      MulAtLeast(c, q' - q);
    }
  }

  /** Stepping the dividend by one bumps the quotient exactly at multiples of c. */
  lemma DivSucc(k: int, c: int)
    requires 0 < c
    ensures (k + 1) / c == k / c + (if (k + 1) % c == 0 then 1 else 0)
  {
    var q, r := k / c, k % c;
    if r == c - 1 {
      DivUnique(k + 1, c, q + 1, 0);
    } else {
      DivUnique(k + 1, c, q, r + 1);
    }
  }

  lemma YearStep(y: int)
    ensures DaysBeforeYear(y + 1) == DaysBeforeYear(y) + DaysInYear(y)
  {
    var k := y - 1;
    DivSucc(k, 4);
    DivSucc(k, 100);
    DivSucc(k, 400);
  }

  lemma {:induction false} YearsMonotone(a: int, b: int)
    requires a <= b
    ensures DaysBeforeYear(a) <= DaysBeforeYear(b)
    decreases b - a
  {
    if a < b {
      YearStep(a);
      YearsMonotone(a + 1, b);
    }
  }

  /** The year that holds day number n: the unique y with
      DaysBeforeYear(y) <= n < DaysBeforeYear(y + 1). */
  function YearOfDay(n: int): (y: int)
    ensures DaysBeforeYear(y) <= n < DaysBeforeYear(y + 1)
  {
    var k0 := (400 * n) / 146097;
    var lo := DaysBeforeYear(k0 + 1);
    var hi := DaysBeforeYear(k0 + 3);
    assert lo <= n by {
      assert 146097 * k0 <= 400 * n;
    }
    assert n < hi by {
      assert 400 * n < 146097 * (k0 + 1);
    }
    if n < DaysBeforeYear(k0 + 2) then k0 + 1 else k0 + 2
  }

  lemma YearOfDayUnique(n: int, y: int)
    requires DaysBeforeYear(y) <= n < DaysBeforeYear(y + 1)
    ensures YearOfDay(n) == y
  {
    var y' := YearOfDay(n);
    if y' < y {
      YearsMonotone(y' + 1, y);
    } else if y < y' {
      YearsMonotone(y + 1, y');
    }
  }

  /** The month that holds day d (0-based) of year y. */
  function MonthOfDay(y: int, d: int): (m: int)
    requires 0 <= d < DaysInYear(y)
    ensures 1 <= m <= 12
    ensures DaysBeforeMonth(y, m) <= d < DaysBeforeMonth(y, m) + DaysInMonth(y, m)
  {
    MonthSearch(y, d, 12)
  }

  function MonthSearch(y: int, d: int, m: int): (r: int)
    requires 1 <= m <= 12 && 0 <= d
    requires d < DaysBeforeMonth(y, m) + DaysInMonth(y, m)
    ensures 1 <= r <= m
    ensures DaysBeforeMonth(y, r) <= d < DaysBeforeMonth(y, r) + DaysInMonth(y, r)
    decreases m
  {
    if DaysBeforeMonth(y, m) <= d then m
    else MonthStep(y, m - 1); MonthSearch(y, d, m - 1)
  }

  lemma MonthOfDayUnique(y: int, d: int, m: int)
    requires 1 <= m <= 12
    requires DaysBeforeMonth(y, m) <= d < DaysBeforeMonth(y, m) + DaysInMonth(y, m)
    ensures d < DaysInYear(y)
    ensures MonthOfDay(y, d) == m
  {
  }

  /** The calendar date of day number n. */
  function CivilFromDays(n: int): (d: Date)
    ensures ValidDate(d)
    ensures DayNumber(d) == n
  {
    var y := YearOfDay(n);
    YearStep(y);
    var doy := n - DaysBeforeYear(y);
    var m := MonthOfDay(y, doy);
    Date(y, m, doy - DaysBeforeMonth(y, m) + 1)
  }

  /** Day numbers and valid dates are in one-to-one correspondence. */
  lemma CivilFromDayNumber(d: Date)
    requires ValidDate(d)
    ensures CivilFromDays(DayNumber(d)) == d
  {
    var n := DayNumber(d);
    var doy := n - DaysBeforeYear(d.year);
    assert 0 <= doy < DaysInYear(d.year) by {
      MonthStep(d.year, d.month);
      if d.month < 12 {
        MonthStep(d.year, 12);
        MonthsMonotone(d.year, d.month + 1, 12);
      }
    }
    assert YearOfDay(n) == d.year by {
      YearStep(d.year);
      YearOfDayUnique(n, d.year);
    }
    MonthOfDayUnique(d.year, doy, d.month);
  }

  lemma MonthsMonotone(y: int, a: int, b: int)
    requires 1 <= a <= b <= 12
    ensures DaysBeforeMonth(y, a) <= DaysBeforeMonth(y, b)
  {
  }

  /** Day 0 is 0001-01-01. */
  lemma EpochIsJanuaryFirstYearOne()
    ensures CivilFromDays(0) == Date(1, 1, 1)
  {
    assert DayNumber(Date(1, 1, 1)) == 0;
    CivilFromDayNumber(Date(1, 1, 1));
  }
}

=== FILE: cloud.dfy ===
/** The collaborators of a sync pass, reduced to what the passes observe:
    the one Firestore document "calendar/channel" that holds both the sync
    token and the watch channel, the replies of the Calendar API, and the
    sequence of calls a pass issues. */
module Cloud {
  import opened Base
  import opened Events

  /** A Firestore field value as the service reads it. */
  datatype Value = Str(s: string) | Num(n: int)

  /** The document calendar/channel; the store is an Option<Doc>, None when
      the document does not exist. */
  type Doc = map<string, Value>

  const TokenField: string := "nextSyncToken"
  const ChannelIdField: string := "channelId"
  const ResourceIdField: string := "resourceId"
  const ExpirationField: string := "exp"

  /** A reply to events.list: the changed items and the next sync token. */
  datatype Listing = Listing(items: seq<Event>, nextSyncToken: string)

  /** A reply to events.watch. */
  datatype WatchReply = WatchReply(resourceId: string, expiration: int)

  /** A call issued to Firestore or to the Calendar API. */
  datatype Call =
    | GetDoc                                      // Get of calendar/channel
    | UpdateToken(token: string)                  // Update of its nextSyncToken field
    | SetDoc(doc: Doc)                            // Set of the whole document
    | ListFromNow                                 // events.list with timeMin = now
    | ListSince(token: string)                    // events.list with syncToken
    | Insert(event: Placeholder)                  // events.insert into the destination
    | Watch(channelId: string)                    // events.watch with a new channel
    | Stop(channelId: string, resourceId: string) // channels.stop

  /** The replies the outside world gives during one run: which Firestore
      calls fail, what each list call returns (None: it fails), the id the
      k-th insert of the run creates (None: it fails), the uuid for a new
      channel, the watch reply, and whether channels.stop succeeds. */
  datatype Env = Env(
    getFails: bool,
    updateFails: bool,
    setFails: bool,
    listFromNow: Option<Listing>,
    listSince: Option<Listing>,
    insertReply: nat -> Option<string>,
    uuid: Option<string>,
    watch: Option<WatchReply>,
    stopSucceeds: bool)

  /** How a run ended, the document afterwards, and the calls it issued in order. */
  datatype Run<+T> = Run(outcome: Outcome<T>, doc: Option<Doc>, calls: seq<Call>)

  // ------------------------------------------------------------- Firestore

  /** `v, _ := doc.Data()[key].(string)`: the string stored under key, or ""
      when the field is missing or not a string. */
  function StringField(d: Doc, key: string): (v: string)
    ensures key in d && d[key].Str? ==> v == d[key].s
    ensures !(key in d && d[key].Str?) ==> v == ""
  {
    if key in d && d[key].Str? then d[key].s else ""
  }

  /** Firestore Update of one field: fails when the call fails or the
      document does not exist; otherwise only that field changes. */
  function UpdateField(doc: Option<Doc>, env: Env, key: string, v: Value): (r: Option<Doc>)
    ensures r.Some? <==> doc.Some? && !env.updateFails
    ensures r.Some? ==> r.value.Keys == doc.value.Keys + {key} && r.value[key] == v
    ensures r.Some? ==> forall k :: k in doc.value && k != key ==> r.value[k] == doc.value[k]
  {
    if doc.None? || env.updateFails then None else Some(doc.value[key := v])
  }

  // ------------------------------------------------------------ item loop

  /** The placeholders a transform yields for the items, in item order. */
  function Targets(items: seq<Event>, xf: Event -> Option<Placeholder>): seq<Placeholder>
    decreases |items|
  {
    if |items| == 0 then []
    else (match xf(items[0]) case Some(p) => [p] case None => []) + Targets(items[1..], xf)
  }

  function Inserts(ps: seq<Placeholder>): (cs: seq<Call>)
    ensures |cs| == |ps|
    ensures forall j :: 0 <= j < |ps| ==> cs[j] == Insert(ps[j])
  {
    seq(|ps|, j requires 0 <= j < |ps| => Insert(ps[j]))
  }

  /** The result of the per-item loop: the created ids, the insert calls,
      and whether an insert failure ended the process. */
  datatype Batch = Batch(ids: seq<string>, calls: seq<Call>, aborted: bool)

  /** b is what issuing the inserts for ts in order yields, starting at the
      k-th insert of the run: the ids are the successive insert replies; if
      every insert succeeds, there is one insert per placeholder; otherwise
      the loop stopped right after the first failing insert. */
  predicate InsertsFor(b: Batch, ts: seq<Placeholder>, env: Env, k: nat) {
    && |b.ids| <= |ts|
    && (forall j :: 0 <= j < |b.ids| ==> env.insertReply(k + j) == Some(b.ids[j]))
    && (!b.aborted ==> |b.ids| == |ts| && b.calls == Inserts(ts))
    && (b.aborted ==> |b.ids| < |ts| && env.insertReply(k + |b.ids|).None?
                      && b.calls == Inserts(ts[..|b.ids| + 1]))
  }

  lemma InsertsForStop(p: Placeholder, ts: seq<Placeholder>, env: Env, k: nat)
    requires env.insertReply(k).None?
    ensures InsertsFor(Batch([], [Insert(p)], true), [p] + ts, env, k)
  {
    assert ([p] + ts)[..1] == [p];
  }

  lemma InsertsForCons(b: Batch, p: Placeholder, ts: seq<Placeholder>, env: Env, k: nat, id: string)
    requires InsertsFor(b, ts, env, k + 1)
    requires env.insertReply(k) == Some(id)
    ensures InsertsFor(Batch([id] + b.ids, [Insert(p)] + b.calls, b.aborted), [p] + ts, env, k)
  {
    var b' := Batch([id] + b.ids, [Insert(p)] + b.calls, b.aborted);
    forall j | 0 <= j < |b'.ids|
      ensures env.insertReply(k + j) == Some(b'.ids[j])
    {
      if j > 0 {
        assert env.insertReply((k + 1) + (j - 1)) == Some(b.ids[j - 1]);
      }
    }
    if b.aborted {
      assert ([p] + ts)[..|b.ids| + 2] == [p] + ts[..|b.ids| + 1];
    }
  }

  /** The per-item loop of calendar.go Sync (with `create`), main.go Do
      (with SyncEvent) and cmd/naive/qiita/notify.go OnNotify: each item
      goes through the transform; an item without a placeholder is skipped;
      otherwise the placeholder is inserted, and a failed insert ends the
      process (log.Fatalf, or a nil dereference in the naive handler).
      k counts the inserts already issued. */
  function InsertAll(items: seq<Event>, xf: Event -> Option<Placeholder>, env: Env, k: nat): (b: Batch)
    ensures InsertsFor(b, Targets(items, xf), env, k)
    decreases |items|
  {
    if |items| == 0 then Batch([], [], false)
    else
      match xf(items[0])
      case None =>
        assert Targets(items, xf) == Targets(items[1..], xf);
        InsertAll(items[1..], xf, env, k)
      case Some(p) =>
        assert Targets(items, xf) == [p] + Targets(items[1..], xf);
        match env.insertReply(k)
        case None =>
          InsertsForStop(p, Targets(items[1..], xf), env, k);
          Batch([], [Insert(p)], true)
        case Some(id) =>
          var rest := InsertAll(items[1..], xf, env, k + 1);
          InsertsForCons(rest, p, Targets(items[1..], xf), env, k, id);
          Batch([id] + rest.ids, [Insert(p)] + rest.calls, rest.aborted)
  }

  /** An item list for which the transform yields nothing causes no insert. */
  lemma {:induction false} NoTargetsNoInserts(items: seq<Event>, xf: Event -> Option<Placeholder>, env: Env, k: nat)
    requires forall j :: 0 <= j < |items| ==> xf(items[j]).None?
    ensures InsertAll(items, xf, env, k) == Batch([], [], false)
    decreases |items|
  {
    if |items| > 0 {
      NoTargetsNoInserts(items[1..], xf, env, k);
    }
  }

  /** Every call of the run that inserts comes after a call that writes the token. */
  predicate TokenWrittenBeforeInserts(calls: seq<Call>) {
    forall j :: 0 <= j < |calls| && calls[j].Insert? ==>
      exists i :: 0 <= i < j && calls[i].UpdateToken?
  }

  /** A run whose calls before the token write insert nothing writes the
      token before every insert, whatever follows. */
  lemma TokenWrittenFirst(pre: seq<Call>, token: string, rest: seq<Call>)
    requires forall j :: 0 <= j < |pre| ==> !pre[j].Insert?
    ensures TokenWrittenBeforeInserts(pre + [UpdateToken(token)] + rest)
  {
    var calls := pre + [UpdateToken(token)] + rest;
    forall j | 0 <= j < |calls| && calls[j].Insert?
      ensures exists i :: 0 <= i < j && calls[i].UpdateToken?
    {
      assert calls[|pre|].UpdateToken?;
    }
  }

  /** Calls that insert nothing, put in front of a run that writes the
      token before its inserts, keep that order. */
  lemma TokenWrittenAfterPrefix(pre: seq<Call>, calls: seq<Call>)
    requires forall j :: 0 <= j < |pre| ==> !pre[j].Insert?
    requires TokenWrittenBeforeInserts(calls)
    ensures TokenWrittenBeforeInserts(pre + calls)
  {
    var all := pre + calls;
    forall j | 0 <= j < |all| && all[j].Insert?
      ensures exists i :: 0 <= i < j && all[i].UpdateToken?
    {
      assert calls[j - |pre|].Insert?;
      var i :| 0 <= i < j - |pre| && calls[i].UpdateToken?;
      assert all[|pre| + i].UpdateToken?;
    }
  }

  /** strings.Join. */
  function Join(parts: seq<string>, sep: string): (r: string)
    ensures |parts| == 0 ==> r == ""
    ensures |parts| == 1 ==> r == parts[0]
    decreases |parts|
  {
    if |parts| == 0 then ""
    else if |parts| == 1 then parts[0]
    else parts[0] + sep + Join(parts[1..], sep)
  }

  /** Appending a part to a non-empty list appends the separator and the part. */
  lemma {:induction false} JoinAppend(parts: seq<string>, x: string, sep: string)
    requires |parts| > 0
    ensures Join(parts + [x], sep) == Join(parts, sep) + sep + x
    decreases |parts|
  {
    if |parts| > 1 {
      assert (parts + [x])[1..] == parts[1..] + [x];
      JoinAppend(parts[1..], x, sep);
    } else {
      assert (parts + [x])[1..] == [x];
    }
  }
}

=== FILE: events.dfy ===
/** The calendar entities the four transforms share: a source event as the
    provider returns it, a configured rule, the placeholder ("ブロック")
    written to the destination, and the first-match rule scan. */
module Events {
  import opened Base
  import opened GoTime

  /** A source calendar event. `start`/`end` are Start.DateTime/End.DateTime;
      an all-day event has an empty DateTime. */
  datatype Event = Event(id: string, summary: string, status: string, start: string, end: string, location: string)

  /** A configured rule: a regular expression over the summary and the
      minute offsets added to the start and the end. */
  datatype Rule = Rule(pattern: string, startOffset: int, endOffset: int)

  /** The blocking event inserted into the destination calendar. */
  datatype Placeholder = Placeholder(summary: string, start: string, end: string)

  /** regexp.MustCompile(pattern).MatchString(subject), left abstract. */
  type Matcher = (string, string) -> bool

  const Confirmed: string := "confirmed"
  const BlockSummary: string := "ブロック"

  /** How far a placeholder reaches: start += before, end += after (minutes). */
  datatype Pad = Pad(before: int, after: int)

  /** The ±30 minutes pad: `defaultOffset` in calendar/calendar.go, and the
      location pad of main.go and cmd/naive/qiita/notify.go. */
  const HalfHour: int := 30

  /** The index of the first rule whose pattern matches subject, if any. */
  function FirstMatch(rules: seq<Rule>, subject: string, matches: Matcher): (r: Option<nat>)
    ensures r.Some? ==> r.value < |rules| && matches(rules[r.value].pattern, subject)
    ensures r.Some? ==> forall j :: 0 <= j < r.value ==> !matches(rules[j].pattern, subject)
    ensures r.None? ==> forall j :: 0 <= j < |rules| ==> !matches(rules[j].pattern, subject)
  {
    FirstMatchFrom(rules, subject, matches, 0)
  }

  function FirstMatchFrom(rules: seq<Rule>, subject: string, matches: Matcher, i: nat): (r: Option<nat>)
    requires i <= |rules|
    requires forall j :: 0 <= j < i ==> !matches(rules[j].pattern, subject)
    ensures r.Some? ==> i <= r.value < |rules| && matches(rules[r.value].pattern, subject)
    ensures r.Some? ==> forall j :: 0 <= j < r.value ==> !matches(rules[j].pattern, subject)
    ensures r.None? ==> forall j :: 0 <= j < |rules| ==> !matches(rules[j].pattern, subject)
    decreases |rules| - i
  {
    if i == |rules| then None
    else if matches(rules[i].pattern, subject) then Some(i)
    else FirstMatchFrom(rules, subject, matches, i + 1)
  }

  /** Rules after the first match are never consulted. */
  lemma FirstMatchIgnoresLaterRules(rules: seq<Rule>, later: seq<Rule>, subject: string, matches: Matcher, i: nat)
    requires i < |rules| && matches(rules[i].pattern, subject)
    requires forall j :: 0 <= j < i ==> !matches(rules[j].pattern, subject)
    ensures FirstMatch(rules, subject, matches) == Some(i)
    ensures FirstMatch(rules[..i + 1] + later, subject, matches) == Some(i)
  {
    var rules' := rules[..i + 1] + later;
    assert forall j :: 0 <= j <= i ==> rules'[j] == rules[j];
  }

  // ------------------------------------------------------------- exclusions

  /** The event has a time of day (it is not an all-day event). */
  predicate Timed(e: Event) {
    e.start != ""
  }

  /** Neither the start nor the end falls on a Saturday or Sunday in its own
      offset, with a time that does not parse read as the zero time. */
  predicate OnWeekdays(e: Event) {
    !OnWeekend(ParseOrZero(e.start)) && !OnWeekend(ParseOrZero(e.end))
  }

  /** The exclusion policy shared by calendar/calendar.go, main.go and
      cmd/naive/qiita/notify.go. */
  predicate Eligible(e: Event) {
    e.status == Confirmed && Timed(e) && OnWeekdays(e)
  }

  /** The placeholder times a pad produces: each parsed time moved by its
      offset and written back in the layout. */
  function Padded(e: Event, pad: Pad): (p: Placeholder)
    ensures p.summary == BlockSummary
  {
    Placeholder(BlockSummary,
                Format(AddMinutes(ParseOrZero(e.start), pad.before)),
                Format(AddMinutes(ParseOrZero(e.end), pad.after)))
  }

  /** A pad small enough for time.Duration, landing on times Format writes
      in the four-digit layout. */
  predicate Representable(e: Event, pad: Pad) {
    && -MaxDurationMinutes <= pad.before <= MaxDurationMinutes
    && -MaxDurationMinutes <= pad.after <= MaxDurationMinutes
    && Formattable(Shifted(ParseOrZero(e.start), pad.before))
    && Formattable(Shifted(ParseOrZero(e.end), pad.after))
  }

  /** Read back, a padded placeholder holds exactly the source instants moved
      by the pad, in the source offsets. */
  lemma PaddedReadsBack(e: Event, pad: Pad)
    requires Representable(e, pad)
    ensures Parse(Padded(e, pad).start) == Some(Shifted(ParseOrZero(e.start), pad.before))
    ensures Parse(Padded(e, pad).end) == Some(Shifted(ParseOrZero(e.end), pad.after))
    ensures Parse(Padded(e, pad).start).value.offset == ParseOrZero(e.start).offset
    ensures Parse(Padded(e, pad).end).value.offset == ParseOrZero(e.end).offset
  {
    ShiftReadsBack(ParseOrZero(e.start), pad.before);
    ShiftReadsBack(ParseOrZero(e.end), pad.after);
  }

  /** One padded time, written and read back. */
  lemma ShiftReadsBack(t: Time, m: int)
    requires -MaxDurationMinutes <= m <= MaxDurationMinutes
    requires Formattable(Shifted(t, m))
    ensures Parse(Format(AddMinutes(t, m))) == Some(Shifted(t, m))
  {
    ParseFormat(Shifted(t, m));
  }
}

=== FILE: functiondo.dfy ===
/** function.go: the prototype. Do lists the next events from now and
    blocks the first one only: no status check, and without a matching rule
    the source start and end are kept as they are. */
module FunctionDo {
  import opened Base
  import opened GoTime
  import opened Events
  import opened Cloud
  import Calendar

  /** The placeholder Do builds for the first item, or None when it returns
      before inserting (all-day, or a weekend start or end). */
  function Block(first: Event, rules: seq<Rule>, matches: Matcher): (r: Option<Placeholder>)
    ensures r.Some? <==> Timed(first) && OnWeekdays(first)
    ensures r.Some? ==> r.value.summary == BlockSummary
    ensures r.Some? && FirstMatch(rules, first.summary, matches).None? ==>
      r.value == Placeholder(BlockSummary, first.start, first.end)
  {
    if !(Timed(first) && OnWeekdays(first)) then None
    else
      match FirstMatch(rules, first.summary, matches)
      case None => Some(Placeholder(BlockSummary, first.start, first.end))
      case Some(i) => Some(Padded(first, Pad(rules[i].startOffset, rules[i].endOffset)))
  }

  /** The first matching rule replaces both times with the padded ones;
      read back, they are the source instants moved by its offsets. */
  lemma BlockFirstRule(first: Event, rules: seq<Rule>, later: seq<Rule>, matches: Matcher, i: nat)
    requires Timed(first) && OnWeekdays(first)
    requires i < |rules| && matches(rules[i].pattern, first.summary)
    requires forall j :: 0 <= j < i ==> !matches(rules[j].pattern, first.summary)
    requires Representable(first, Pad(rules[i].startOffset, rules[i].endOffset))
    ensures Block(first, rules, matches).Some?
    ensures Parse(Block(first, rules, matches).value.start)
            == Some(Shifted(ParseOrZero(first.start), rules[i].startOffset))
    ensures Parse(Block(first, rules, matches).value.end)
            == Some(Shifted(ParseOrZero(first.end), rules[i].endOffset))
    ensures Block(first, rules[..i + 1] + later, matches) == Block(first, rules, matches)
  {
    FirstMatchIgnoresLaterRules(rules, later, first.summary, matches, i);
    assert (rules[..i + 1] + later)[i] == rules[i];
    PaddedReadsBack(first, Pad(rules[i].startOffset, rules[i].endOffset));
  }

  /** The status plays no part: a cancelled event is blocked like a
      confirmed one. */
  lemma StatusIgnored(first: Event, status: string, rules: seq<Rule>, matches: Matcher)
    ensures Block(first.(status := status), rules, matches) == Block(first, rules, matches)
  {
  }

  /** For a confirmed event that a rule matches, the prototype and
      calendar/calendar.go produce the same placeholder. */
  lemma AgreesWithCalendarOnMatch(first: Event, rules: seq<Rule>, matches: Matcher)
    requires first.status == Confirmed
    requires FirstMatch(rules, first.summary, matches).Some?
    ensures Block(first, rules, matches) == Calendar.NewEvent(first, rules, matches)
  {
  }

  /** `Do` as written: list from now (a failure ends the process), take
      Items[0] unconditionally, and insert its placeholder if any. */
  function Do(env: Env, rules: seq<Rule>, matches: Matcher): (r: Run<()>)
    ensures |r.calls| >= 1 && r.calls[0] == ListFromNow
    ensures !r.outcome.Failed?
    ensures env.listFromNow.Some? && |env.listFromNow.value.items| == 0 ==>
      r.outcome == Aborted(IndexOutOfRange)
    ensures |r.calls| <= 2 && (|r.calls| == 2 ==> r.calls[1].Insert?)
  {
    match env.listFromNow
    case None => Run(Aborted(ListFailed), None, [ListFromNow])
    case Some(listing) =>
      if |listing.items| == 0 then Run(Aborted(IndexOutOfRange), None, [ListFromNow])
      else BlockFirst(Block(listing.items[0], rules, matches), env)
  }

  /** Do blocks Items[0] only: after the listing it inserts that event's
      placeholder, and nothing when it is all-day or on a weekend. */
  lemma DoBlocksFirstItem(env: Env, rules: seq<Rule>, matches: Matcher)
    requires env.listFromNow.Some? && |env.listFromNow.value.items| > 0
    ensures var b := Block(env.listFromNow.value.items[0], rules, matches);
      Do(env, rules, matches).calls == [ListFromNow] + (if b.Some? then [Insert(b.value)] else [])
  {
    var b := Block(env.listFromNow.value.items[0], rules, matches);
    assert Do(env, rules, matches) == BlockFirst(b, env);
  }

  /** Blocks the first listed event, given its placeholder (Block's result):
      insert it, if any; a failed insert ends the process. */
  function BlockFirst(block: Option<Placeholder>, env: Env): (r: Run<()>)
    ensures |r.calls| >= 1 && r.calls[0] == ListFromNow
    ensures !r.outcome.Failed?
    ensures block.None? ==> r == Run(Done(()), None, [ListFromNow])
    ensures block.Some? ==>
      && r.calls == [ListFromNow, Insert(block.value)]
      && (r.outcome.Done? <==> env.insertReply(0).Some?)
  {
    match block
    case None => Run(Done(()), None, [ListFromNow])
    case Some(p) =>
      Run(if env.insertReply(0).None? then Aborted(InsertFailed) else Done(()), None, [ListFromNow, Insert(p)])
  }

  /** Do with the listing checked for emptiness first: "No upcoming events
      found." and nothing else. */
  function DoGuarded(env: Env, rules: seq<Rule>, matches: Matcher): (r: Run<()>)
    ensures |r.calls| >= 1 && r.calls[0] == ListFromNow
    ensures !r.outcome.Failed?
    ensures r.outcome != Aborted(IndexOutOfRange)
  {
    match env.listFromNow
    case None => Run(Aborted(ListFailed), None, [ListFromNow])
    case Some(listing) =>
      if |listing.items| == 0 then Run(Done(()), None, [ListFromNow])
      else BlockFirst(Block(listing.items[0], rules, matches), env)
  }

  /** As written, an empty listing panics on Items[0] after reporting that
      no events were found. */
  lemma EmptyListingPanics(rules: seq<Rule>, matches: Matcher, env: Env)
    requires env.listFromNow.Some? && |env.listFromNow.value.items| == 0
    ensures Do(env, rules, matches).outcome == Aborted(IndexOutOfRange)
  {
  }

  /** The guarded pass completes on an empty listing without inserting, and
      otherwise does exactly what Do does. */
  lemma GuardedDoAgrees(env: Env, rules: seq<Rule>, matches: Matcher)
    ensures env.listFromNow.Some? && |env.listFromNow.value.items| == 0 ==>
      DoGuarded(env, rules, matches) == Run(Done(()), None, [ListFromNow])
    ensures !(env.listFromNow.Some? && |env.listFromNow.value.items| == 0) ==>
      DoGuarded(env, rules, matches) == Do(env, rules, matches)
  {
  }
}

=== FILE: gotime.dfy ===
/** The part of Go's time package the service relies on: a time.Time with a
    fixed UTC offset, Add with a time.Duration, Weekday, and Parse/Format with
    the layout "2006-01-02T15:04:05-07:00" (gcalTimeFormat), which is the
    date-time-with-numeric-offset profile of section 5.6 of RFC 3339. */
module GoTime {
  import opened Base
  import opened Civil

  const NanosPerSecond: int := 1_000_000_000
  const NanosPerMinute: int := 60_000_000_000
  const SecondsPerDay: int := 86400

  /** A time.Time: the instant, in nanoseconds since 0001-01-01T00:00:00Z,
      and the zone offset in minutes east of UTC that Format prints. The
      offset is fixed: this is what time.Parse returns when the process zone
      (time.Local) is UTC or has no daylight-saving changes. */
  datatype Time = Time(nanos: int, offset: int)

  /** The zero time.Time, which time.Parse returns alongside an error. */
  const ZeroTime: Time := Time(0, 0)

  /** Wall-clock seconds since 0001-01-01T00:00:00 in the time's own offset. */
  function LocalSeconds(t: Time): int {
    t.nanos / NanosPerSecond + 60 * t.offset
  }

  datatype Weekday = Sunday | Monday | Tuesday | Wednesday | Thursday | Friday | Saturday

  /** t.Weekday(): day 0 (0001-01-01) is a Monday, and the day is counted
      in the time's own offset. */
  function WeekdayOf(t: Time): Weekday {
    var w := (LocalSeconds(t) / SecondsPerDay + 1) % 7;
    if w == 0 then Sunday else if w == 1 then Monday else if w == 2 then Tuesday
    else if w == 3 then Wednesday else if w == 4 then Thursday else if w == 5 then Friday
    else Saturday
  }

  predicate OnWeekend(t: Time) {
    WeekdayOf(t) == Saturday || WeekdayOf(t) == Sunday
  }

  /** The weekday after w. */
  function NextDay(w: Weekday): Weekday {
    match w
    case Sunday => Monday
    case Monday => Tuesday
    case Tuesday => Wednesday
    case Wednesday => Thursday
    case Thursday => Friday
    case Friday => Saturday
    case Saturday => Sunday
  }

  /** A day later is the next weekday, so Friday is followed by Saturday and
      Saturday by Sunday. */
  lemma WeekdayStepsDaily(t: Time)
    ensures WeekdayOf(Shifted(t, 1440)) == NextDay(WeekdayOf(t))
  {
    var t' := Shifted(t, 1440);
    DivUnique(t'.nanos, NanosPerSecond, t.nanos / NanosPerSecond + SecondsPerDay, t.nanos % NanosPerSecond);
    var ls := LocalSeconds(t);
    DivUnique(ls + SecondsPerDay, SecondsPerDay, ls / SecondsPerDay + 1, ls % SecondsPerDay);
    var k := ls / SecondsPerDay + 1;
    if k % 7 == 6 {
      DivUnique(k + 1, 7, k / 7 + 1, 0);
    } else {
      DivUnique(k + 1, 7, k / 7, k % 7 + 1);
    }
  }

  /** Any whole number of weeks later is the same weekday. */
  lemma {:induction false} WeekdayRepeatsWeekly(t: Time, weeks: nat)
    ensures WeekdayOf(Shifted(t, 7 * 1440 * weeks)) == WeekdayOf(t)
    decreases weeks
  {
    if weeks > 0 {
      var u := Shifted(t, 7 * 1440 * (weeks - 1));
      WeekdayRepeatsWeekly(t, weeks - 1);
      assert Shifted(t, 7 * 1440 * weeks) == Shifted(Shifted(Shifted(Shifted(Shifted(Shifted(Shifted(u, 1440), 1440), 1440), 1440), 1440), 1440), 1440);
      WeekdayStepsDaily(u);
      WeekdayStepsDaily(Shifted(u, 1440));
      WeekdayStepsDaily(Shifted(Shifted(u, 1440), 1440));
      WeekdayStepsDaily(Shifted(Shifted(Shifted(u, 1440), 1440), 1440));
      WeekdayStepsDaily(Shifted(Shifted(Shifted(Shifted(u, 1440), 1440), 1440), 1440));
      WeekdayStepsDaily(Shifted(Shifted(Shifted(Shifted(Shifted(u, 1440), 1440), 1440), 1440), 1440));
      WeekdayStepsDaily(Shifted(Shifted(Shifted(Shifted(Shifted(Shifted(u, 1440), 1440), 1440), 1440), 1440), 1440));
    }
  }

  // ---------------------------------------------------------------- durations

  const Int64Min: int := -0x8000_0000_0000_0000
  const Int64Span: int := 0x1_0000_0000_0000_0000

  /** Two's-complement wrap-around of a 64-bit signed multiplication result. */
  function Int64Wrap(x: int): (r: int)
    ensures Int64Min <= r < -Int64Min
    ensures (x - r) % Int64Span == 0
    ensures Int64Min <= x < -Int64Min ==> r == x
  {
    var r := (x - Int64Min) % Int64Span + Int64Min;
    assert x - r == Int64Span * ((x - Int64Min) / Int64Span);
    assert Int64Min <= x < -Int64Min ==> r == x by {
      if Int64Min <= x < -Int64Min {
        DivUnique(x - Int64Min, Int64Span, 0, x - Int64Min);
      }
    }
    r
  }

  /** The largest minute count whose time.Duration does not overflow. */
  const MaxDurationMinutes: int := 153722867

  /** time.Duration(m) * time.Minute, computed in int64 nanoseconds. */
  function MinutesDuration(m: int): (d: int)
    ensures Int64Min <= d < -Int64Min
    ensures -MaxDurationMinutes <= m <= MaxDurationMinutes ==> d == m * NanosPerMinute
  {
    Int64Wrap(m * NanosPerMinute)
  }

  /** One minute beyond the range, the duration wraps to a negative one:
      a later time would come out earlier. */
  lemma DurationWrapsBeyondRange()
    ensures MinutesDuration(MaxDurationMinutes) > 0
    ensures MinutesDuration(MaxDurationMinutes + 1) < 0
  {
    var x := (MaxDurationMinutes + 1) * NanosPerMinute;
    DivUnique(x - Int64Min, Int64Span, 1, x - Int64Min - Int64Span);
  }

  /** t.Add(d). The instant moves by d nanoseconds; the zone is kept. Go
      saturates at 2^63 seconds, far outside any reachable instant here. */
  function Add(t: Time, d: int): Time {
    Time(t.nanos + d, t.offset)
  }

  /** The exact instant m minutes after t, in t's zone. */
  function Shifted(t: Time, m: int): Time {
    Time(t.nanos + m * NanosPerMinute, t.offset)
  }

  /** `add` of calendar/calendar.go: t moved by offset minutes. */
  function AddMinutes(t: Time, m: int): (r: Time)
    ensures r.offset == t.offset
    ensures -MaxDurationMinutes <= m <= MaxDurationMinutes ==> r == Shifted(t, m)
  {
    Add(t, MinutesDuration(m))
  }

  // ----------------------------------------------------------- civil fields

  datatype Fields = Fields(date: Date, hour: int, minute: int, second: int, offset: int)

  predicate ValidFields(f: Fields) {
    && ValidDate(f.date)
    && 0 <= f.hour < 24 && 0 <= f.minute < 60 && 0 <= f.second < 60
  }

  /** The wall-clock reading of t in its own offset. */
  function FieldsOf(t: Time): (f: Fields)
    ensures ValidFields(f)
  {
    var ls := LocalSeconds(t);
    var sod := ls % SecondsPerDay;
    Fields(CivilFromDays(ls / SecondsPerDay), sod / 3600, sod % 3600 / 60, sod % 60, t.offset)
  }

  /** The time whose wall clock in offset f.offset reads f. */
  function FromFields(f: Fields): Time
    requires ValidFields(f)
  {
    var ls := DayNumber(f.date) * SecondsPerDay + 3600 * f.hour + 60 * f.minute + f.second;
    Time((ls - 60 * f.offset) * NanosPerSecond, f.offset)
  }

  lemma FieldsOfFromFields(f: Fields)
    requires ValidFields(f)
    ensures FieldsOf(FromFields(f)) == f
  {
    var sod := 3600 * f.hour + 60 * f.minute + f.second;
    var ls := DayNumber(f.date) * SecondsPerDay + sod;
    var t := FromFields(f);
    DivUnique((ls - 60 * f.offset) * NanosPerSecond, NanosPerSecond, ls - 60 * f.offset, 0);
    assert LocalSeconds(t) == ls;
    DivUnique(ls, SecondsPerDay, DayNumber(f.date), sod);
    CivilFromDayNumber(f.date);
    DivUnique(sod, 3600, f.hour, 60 * f.minute + f.second);
    DivUnique(60 * f.minute + f.second, 60, f.minute, f.second);
    DivUnique(sod, 60, 60 * f.hour + f.minute, f.second);
  }

  lemma FromFieldsOf(t: Time)
    requires t.nanos % NanosPerSecond == 0
    ensures FromFields(FieldsOf(t)) == t
  {
    var ls := LocalSeconds(t);
    var sod := ls % SecondsPerDay;
    var h, mi, se := sod / 3600, sod % 3600 / 60, sod % 60;
    assert 3600 * h + 60 * mi + se == sod by {
      DivUnique(sod % 3600, 60, mi, sod % 3600 % 60);
      DivUnique(sod, 60, 60 * h + mi, sod % 3600 % 60);
    }
    assert ls - 60 * t.offset == t.nanos / NanosPerSecond;
  }

  // ------------------------------------------------------------- formatting

  function Digit(n: int): char
    requires 0 <= n < 10
  {
    (48 + n) as char
  }

  /** Decimal digits of n, without leading zeros. */
  function Decimal(n: nat): string
    decreases n
  {
    if n < 10 then [Digit(n)] else Decimal(n / 10) + [Digit(n % 10)]
  }

  function Zeros(k: nat): string {
    seq(k, _ => '0')
  }

  /** Go's appendInt for a non-negative value: decimal, zero-padded to width. */
  function PadInt(n: nat, width: nat): string {
    var ds := Decimal(n);
    if |ds| >= width then ds else Zeros(width - |ds|) + ds
  }

  /** The "2006" element: negative years carry a '-' before four or more digits. */
  function FormatYear(y: int): string {
    if y < 0 then "-" + PadInt(-y, 4) else PadInt(y, 4)
  }

  /** The "-07:00" element: a sign (zero is '+'), hours, ':', minutes. */
  function FormatOffset(off: int): string {
    if off < 0 then "-" + PadInt(-off / 60, 2) + ":" + PadInt(-off % 60, 2)
    else "+" + PadInt(off / 60, 2) + ":" + PadInt(off % 60, 2)
  }

  /** t.Format(gcalTimeFormat). */
  function Format(t: Time): string {
    Render(FieldsOf(t))
  }

  /** The layout elements written out for a wall-clock reading. */
  function Render(f: Fields): string
    requires ValidFields(f)
  {
    FormatYear(f.date.year) + "-" + PadInt(f.date.month, 2) + "-" + PadInt(f.date.day, 2)
    + "T" + PadInt(f.hour, 2) + ":" + PadInt(f.minute, 2) + ":" + PadInt(f.second, 2)
    + FormatOffset(f.offset)
  }

  // ---------------------------------------------------------------- parsing

  predicate IsDigit(c: char) {
    '0' <= c <= '9'
  }

  function DigitValue(c: char): int
    requires IsDigit(c)
  {
    c as int - 48
  }

  function Num2(s: string, i: nat): int
    requires i + 2 <= |s| && IsDigit(s[i]) && IsDigit(s[i + 1])
  {
    10 * DigitValue(s[i]) + DigitValue(s[i + 1])
  }

  function Num4(s: string, i: nat): int
    requires i + 4 <= |s| && IsDigit(s[i]) && IsDigit(s[i + 1]) && IsDigit(s[i + 2]) && IsDigit(s[i + 3])
  {
    100 * Num2(s, i) + Num2(s, i + 2)
  }

  /** The fixed layout YYYY-MM-DDTHH:MM:SS±hh:mm, characters only. */
  predicate WellShaped(s: string) {
    && |s| == 25
    && IsDigit(s[0]) && IsDigit(s[1]) && IsDigit(s[2]) && IsDigit(s[3]) && s[4] == '-'
    && IsDigit(s[5]) && IsDigit(s[6]) && s[7] == '-'
    && IsDigit(s[8]) && IsDigit(s[9]) && s[10] == 'T'
    && IsDigit(s[11]) && IsDigit(s[12]) && s[13] == ':'
    && IsDigit(s[14]) && IsDigit(s[15]) && s[16] == ':'
    && IsDigit(s[17]) && IsDigit(s[18])
    && (s[19] == '+' || s[19] == '-')
    && IsDigit(s[20]) && IsDigit(s[21]) && s[22] == ':'
    && IsDigit(s[23]) && IsDigit(s[24])
  }

  /** The fields written in a well-shaped string, range checks aside. */
  function FieldsIn(s: string): Fields
    requires WellShaped(s)
  {
    var oh, om := Num2(s, 20), Num2(s, 23);
    Fields(Date(Num4(s, 0), Num2(s, 5), Num2(s, 8)), Num2(s, 11), Num2(s, 14), Num2(s, 17),
           if s[19] == '-' then -(60 * oh + om) else 60 * oh + om)
  }

  /** The range checks of time.Parse: month 1-12, day within the month,
      hour < 24, minute and second < 60, offset hour <= 24 and offset
      minute <= 60. */
  predicate InRange(s: string)
    requires WellShaped(s)
  {
    var f := FieldsIn(s);
    && 1 <= f.date.month <= 12 && 1 <= f.date.day <= DaysInMonth(f.date.year, f.date.month)
    && f.hour < 24 && f.minute < 60 && f.second < 60
    && Num2(s, 20) <= 24 && Num2(s, 23) <= 60
  }

  /** time.Parse(gcalTimeFormat, s); None where Go reports an error. */
  function Parse(s: string): (r: Option<Time>)
    ensures r.Some? <==> WellShaped(s) && InRange(s)
    ensures r.Some? ==> r.value.offset == FieldsIn(s).offset
  {
    if WellShaped(s) && InRange(s) then Some(FromFields(FieldsIn(s))) else None
  }

  /** A parsed time's wall clock reads the fields written in the string. */
  lemma ParseReadsFields(s: string)
    requires Parse(s).Some?
    ensures FieldsOf(Parse(s).value) == FieldsIn(s)
  {
    FieldsOfFromFields(FieldsIn(s));
  }

  /** `t, _ := time.Parse(gcalTimeFormat, s)`: the error is discarded and a
      failed parse leaves the zero time. */
  function ParseOrZero(s: string): (t: Time)
    ensures Parse(s).Some? ==> t == Parse(s).value
    ensures Parse(s).None? ==> t == ZeroTime
    ensures Parse(s).None? ==> LocalSeconds(t) == 0 && WeekdayOf(t) == Monday
  {
    match Parse(s)
    case Some(t) => t
    case None => ZeroTime
  }

  // ------------------------------------------------------------ round trips

  /** Times that Format writes in exactly the 25-character layout that Parse
      reads back: whole seconds, a four-digit year, and an offset whose hour
      part Parse accepts. */
  predicate Formattable(t: Time) {
    && t.nanos % NanosPerSecond == 0
    && -1500 < t.offset < 1500
    && FirstDayOfYearZero * SecondsPerDay <= LocalSeconds(t) < FirstDayOfYearTenThousand * SecondsPerDay
  }

  /** Day numbers of 0000-01-01 and 10000-01-01. */
  const FirstDayOfYearZero: int := -366
  const FirstDayOfYearTenThousand: int := 3652059

  /** The local day range of Formattable is the years 0 to 9999. */
  lemma FormattableYear(t: Time)
    requires Formattable(t)
    ensures 0 <= FieldsOf(t).date.year <= 9999
  {
    var n := LocalSeconds(t) / SecondsPerDay;
    assert FirstDayOfYearZero <= n < FirstDayOfYearTenThousand;
    var y := YearOfDay(n);
    assert FieldsOf(t).date.year == y;
    assert DaysBeforeYear(0) == FirstDayOfYearZero;
    assert DaysBeforeYear(10000) == FirstDayOfYearTenThousand;
    if y < 0 {
      YearsMonotone(y + 1, 0);
    } else if y > 9999 {
      YearsMonotone(10000, y);
    }
  }

  function Two(n: int): string
    requires 0 <= n < 100
  {
    [Digit(n / 10), Digit(n % 10)]
  }

  function Four(n: int): string
    requires 0 <= n < 10000
  {
    Two(n / 100) + Two(n % 100)
  }

  /** The 25 characters of the layout for in-range field values. */
  function Layout(y: int, mo: int, d: int, h: int, mi: int, se: int, sign: char, oh: int, om: int): (s: string)
    requires 0 <= y < 10000
    requires 0 <= mo < 100 && 0 <= d < 100 && 0 <= h < 100 && 0 <= mi < 100 && 0 <= se < 100
    requires 0 <= oh < 100 && 0 <= om < 100
  {
    Four(y) + "-" + Two(mo) + "-" + Two(d) + "T" + Two(h) + ":" + Two(mi) + ":" + Two(se)
    + [sign] + Two(oh) + ":" + Two(om)
  }

  lemma LayoutChars(y: int, mo: int, d: int, h: int, mi: int, se: int, sign: char, oh: int, om: int)
    requires 0 <= y < 10000
    requires 0 <= mo < 100 && 0 <= d < 100 && 0 <= h < 100 && 0 <= mi < 100 && 0 <= se < 100
    requires 0 <= oh < 100 && 0 <= om < 100
    ensures var s := Layout(y, mo, d, h, mi, se, sign, oh, om);
      && |s| == 25
      && s[0..2] == Two(y / 100) && s[2..4] == Two(y % 100) && s[4] == '-'
      && s[5..7] == Two(mo) && s[7] == '-' && s[8..10] == Two(d) && s[10] == 'T'
      && s[11..13] == Two(h) && s[13] == ':' && s[14..16] == Two(mi) && s[16] == ':'
      && s[17..19] == Two(se) && s[19] == sign
      && s[20..22] == Two(oh) && s[22] == ':' && s[23..25] == Two(om)
  {
  }

  lemma TwoValue(s: string, i: nat, n: int)
    requires 0 <= n < 100
    requires i + 2 <= |s| && s[i..i + 2] == Two(n)
    ensures IsDigit(s[i]) && IsDigit(s[i + 1]) && Num2(s, i) == n
  {
    assert s[i] == s[i..i + 2][0] && s[i + 1] == s[i..i + 2][1];
  }

  /** Parse reads the layout's fields back. */
  lemma ParseLayout(y: int, mo: int, d: int, h: int, mi: int, se: int, sign: char, oh: int, om: int)
    requires 0 <= y < 10000
    requires 0 <= mo < 100 && 0 <= d < 100 && 0 <= h < 100 && 0 <= mi < 100 && 0 <= se < 100
    requires 0 <= oh < 100 && 0 <= om < 100
    requires sign == '+' || sign == '-'
    ensures var s := Layout(y, mo, d, h, mi, se, sign, oh, om);
      && WellShaped(s)
      && FieldsIn(s) == Fields(Date(y, mo, d), h, mi, se, if sign == '-' then -(60 * oh + om) else 60 * oh + om)
      && s[19] == sign && Num2(s, 20) == oh && Num2(s, 23) == om
  {
    var s := Layout(y, mo, d, h, mi, se, sign, oh, om);
    LayoutChars(y, mo, d, h, mi, se, sign, oh, om);
    TwoValue(s, 0, y / 100); TwoValue(s, 2, y % 100);
    TwoValue(s, 5, mo); TwoValue(s, 8, d); TwoValue(s, 11, h); TwoValue(s, 14, mi); TwoValue(s, 17, se);
    TwoValue(s, 20, oh); TwoValue(s, 23, om);
  }

  lemma Pad2(n: int)
    requires 0 <= n < 100
    ensures PadInt(n, 2) == Two(n)
  {
    if n >= 10 {
      assert Decimal(n) == Decimal(n / 10) + [Digit(n % 10)];
    }
  }

  /** The last two decimal digits of n split off as Two. */
  lemma DecimalSplit2(n: int)
    requires n >= 100
    ensures Decimal(n) == Decimal(n / 100) + Two(n % 100)
  {
    var q1, d0 := n / 10, n % 10;
    var q2, d1 := q1 / 10, q1 % 10;
    assert Decimal(n) == Decimal(q1) + [Digit(d0)];
    assert Decimal(q1) == Decimal(q2) + [Digit(d1)];
    DivUnique(n, 100, q2, 10 * d1 + d0);
    DivUnique(10 * d1 + d0, 10, d1, d0);
  }

  lemma Pad4(n: int)
    requires 0 <= n < 10000
    ensures PadInt(n, 4) == Four(n)
  {
    if n >= 100 {
      DecimalSplit2(n);
      Pad2(n / 100);
      assert PadInt(n, 4) == PadInt(n / 100, 2) + Two(n % 100);
    } else {
      Pad2(n);
      assert n / 100 == 0 && n % 100 == n;
      assert PadInt(n, 4) == "00" + PadInt(n, 2);
    }
  }

  lemma OffsetLayout(off: int)
    requires -1500 < off < 1500
    ensures var a := if off < 0 then -off else off;
      FormatOffset(off) == [if off < 0 then '-' else '+'] + Two(a / 60) + ":" + Two(a % 60)
  {
    var a := if off < 0 then -off else off;
    Pad2(a / 60); Pad2(a % 60);
  }

  lemma RenderIsLayout(f: Fields)
    requires ValidFields(f)
    requires -1500 < f.offset < 1500
    requires 0 <= f.date.year <= 9999
    ensures var a := if f.offset < 0 then -f.offset else f.offset;
      Render(f) == Layout(f.date.year, f.date.month, f.date.day, f.hour, f.minute, f.second,
                          if f.offset < 0 then '-' else '+', a / 60, a % 60)
  {
    Pad4(f.date.year);
    Pad2(f.date.month); Pad2(f.date.day); Pad2(f.hour); Pad2(f.minute); Pad2(f.second);
    OffsetLayout(f.offset);
  }

  /** What Render writes is well shaped, holds f and an offset Parse
      accepts. */
  lemma RenderReadsFields(f: Fields)
    requires ValidFields(f)
    requires -1500 < f.offset < 1500
    requires 0 <= f.date.year <= 9999
    ensures WellShaped(Render(f)) && FieldsIn(Render(f)) == f
    ensures Num2(Render(f), 20) <= 24 && Num2(Render(f), 23) < 60
  {
    var a := if f.offset < 0 then -f.offset else f.offset;
    var sign := if f.offset < 0 then '-' else '+';
    RenderIsLayout(f);
    ParseLayout(f.date.year, f.date.month, f.date.day, f.hour, f.minute, f.second, sign, a / 60, a % 60);
  }

  /** Reading back what Format wrote gives the same time. */
  lemma ParseFormat(t: Time)
    requires Formattable(t)
    ensures Parse(Format(t)) == Some(t)
  {
    FormattableYear(t);
    RenderReadsFields(FieldsOf(t));
    assert InRange(Format(t));
    FromFieldsOf(t);
  }

  lemma DigitOfValue(c: char)
    requires IsDigit(c)
    ensures Digit(DigitValue(c)) == c
  {
  }

  lemma TwoOfNum(s: string, i: nat)
    requires i + 2 <= |s| && IsDigit(s[i]) && IsDigit(s[i + 1])
    ensures s[i..i + 2] == Two(Num2(s, i))
  {
    DigitOfValue(s[i]);
    DigitOfValue(s[i + 1]);
    var n := Num2(s, i);
    DivUnique(n, 10, DigitValue(s[i]), DigitValue(s[i + 1]));
  }

  /** A well-shaped string is the layout of the fields written in it. */
  lemma ShapeIsLayout(s: string)
    requires WellShaped(s)
    ensures s == Layout(Num4(s, 0), Num2(s, 5), Num2(s, 8), Num2(s, 11), Num2(s, 14), Num2(s, 17),
                        s[19], Num2(s, 20), Num2(s, 23))
  {
    var y := Num4(s, 0);
    var l := Layout(y, Num2(s, 5), Num2(s, 8), Num2(s, 11), Num2(s, 14), Num2(s, 17), s[19], Num2(s, 20), Num2(s, 23));
    LayoutChars(y, Num2(s, 5), Num2(s, 8), Num2(s, 11), Num2(s, 14), Num2(s, 17), s[19], Num2(s, 20), Num2(s, 23));
    DivUnique(y, 100, Num2(s, 0), Num2(s, 2));
    TwoOfNum(s, 0); TwoOfNum(s, 2); TwoOfNum(s, 5); TwoOfNum(s, 8); TwoOfNum(s, 11);
    TwoOfNum(s, 14); TwoOfNum(s, 17); TwoOfNum(s, 20); TwoOfNum(s, 23);
    forall i | 0 <= i < 25
      ensures l[i] == s[i]
    {
      if i < 2 { assert l[i] == l[0..2][i] && s[i] == s[0..2][i]; }
      else if i < 4 { assert l[i] == l[2..4][i - 2] && s[i] == s[2..4][i - 2]; }
      else if 5 <= i < 7 { assert l[i] == l[5..7][i - 5] && s[i] == s[5..7][i - 5]; }
      else if 8 <= i < 10 { assert l[i] == l[8..10][i - 8] && s[i] == s[8..10][i - 8]; }
      else if 11 <= i < 13 { assert l[i] == l[11..13][i - 11] && s[i] == s[11..13][i - 11]; }
      else if 14 <= i < 16 { assert l[i] == l[14..16][i - 14] && s[i] == s[14..16][i - 14]; }
      else if 17 <= i < 19 { assert l[i] == l[17..19][i - 17] && s[i] == s[17..19][i - 17]; }
      else if 20 <= i < 22 { assert l[i] == l[20..22][i - 20] && s[i] == s[20..22][i - 20]; }
      else if 23 <= i { assert l[i] == l[23..25][i - 23] && s[i] == s[23..25][i - 23]; }
    }
  }

  /** A well-formed timestamp whose offset is written canonically (minutes
      below 60, and "+" for a zero offset) is reproduced byte for byte. */
  lemma FormatParse(s: string)
    requires Parse(s).Some?
    requires Num2(s, 23) < 60
    requires s[19] == '-' ==> Num2(s, 20) + Num2(s, 23) > 0
    ensures Format(Parse(s).value) == s
  {
    var f := FieldsIn(s);
    var oh, om := Num2(s, 20), Num2(s, 23);
    var a := 60 * oh + om;
    DivUnique(a, 60, oh, om);
    assert (if f.offset < 0 then -f.offset else f.offset) == a;
    assert (if f.offset < 0 then '-' else '+') == s[19];
    ParseReadsFields(s);
    assert Format(Parse(s).value) == Render(f);
    RenderIsLayout(f);
    ShapeIsLayout(s);
  }

  /** A negative zero offset ("-00:00") is accepted, but Format writes the
      parsed time back with a '+' in its place. */
  lemma NegativeZeroOffsetIsRewritten(s: string)
    requires Parse(s).Some? && s[19] == '-' && Num2(s, 20) == 0 && Num2(s, 23) == 0
    ensures Format(Parse(s).value) == s[19 := '+']
  {
    var s' := s[19 := '+'];
    assert forall i :: 0 <= i < 25 && i != 19 ==> s'[i] == s[i];
    assert WellShaped(s');
    assert FieldsIn(s') == FieldsIn(s);
    assert Parse(s') == Parse(s);
    FormatParse(s');
  }
}

=== FILE: mainapp.dfy ===
/** main.go: the location-first variant of the transform (getEventTime,
    SyncEvent) and the notification pass Do, which either resumes from the
    stored token or bootstraps from a "from now" listing. */
module MainApp {
  import opened Base
  import opened GoTime
  import opened Events
  import opened Cloud
  import Calendar

  /** The pad getEventTime applies: ±30 minutes for an event with a
      location, else the first matching rule's offsets; None when the source
      strings are returned as they are. */
  function PadOf(src: Event, rules: seq<Rule>, matches: Matcher): Option<Pad> {
    if src.location != "" then Some(Pad(-HalfHour, HalfHour))
    else
      match FirstMatch(rules, src.summary, matches)
      case Some(i) => Some(Pad(rules[i].startOffset, rules[i].endOffset))
      case None => None
  }

  /** `getEventTime`: ("", "") for an excluded event; otherwise the padded
      times, or the source strings when no pad applies. */
  function GetEventTime(src: Event, rules: seq<Rule>, matches: Matcher): (r: (string, string))
    ensures r.0 == "" <==> !Eligible(src)
    ensures !Eligible(src) ==> r == ("", "")
    ensures Eligible(src) && PadOf(src, rules, matches).None? ==> r == (src.start, src.end)
  {
    if !Eligible(src) then ("", "")
    else
      match PadOf(src, rules, matches)
      case None => (src.start, src.end)
      case Some(pad) =>
        var p := Padded(src, pad);
        assert |p.start| > 0 by { assert |Render(FieldsOf(AddMinutes(ParseOrZero(src.start), pad.before)))| > 0; }
        (p.start, p.end)
  }

  /** Read back, padded times are the source instants moved by the pad, in
      the source offsets. */
  lemma GetEventTimeReadsBack(src: Event, rules: seq<Rule>, matches: Matcher)
    requires Eligible(src) && PadOf(src, rules, matches).Some?
    requires Representable(src, PadOf(src, rules, matches).value)
    ensures var pad := PadOf(src, rules, matches).value;
      var r := GetEventTime(src, rules, matches);
      && Parse(r.0) == Some(Shifted(ParseOrZero(src.start), pad.before))
      && Parse(r.1) == Some(Shifted(ParseOrZero(src.end), pad.after))
  {
    PaddedReadsBack(src, PadOf(src, rules, matches).value);
  }

  /** A location pads ±30 minutes whatever the rules say. */
  lemma LocationTakesPrecedence(src: Event, rules: seq<Rule>, others: seq<Rule>, matches: Matcher, m: Matcher)
    requires Eligible(src) && src.location != ""
    requires Representable(src, Pad(-HalfHour, HalfHour))
    ensures GetEventTime(src, rules, matches) == GetEventTime(src, others, m)
    ensures Parse(GetEventTime(src, rules, matches).0) == Some(Shifted(ParseOrZero(src.start), -30))
    ensures Parse(GetEventTime(src, rules, matches).1) == Some(Shifted(ParseOrZero(src.end), 30))
  {
    GetEventTimeReadsBack(src, rules, matches);
  }

  /** Without a location the first matching rule decides, later rules unseen. */
  lemma FirstRuleWithoutLocation(src: Event, rules: seq<Rule>, later: seq<Rule>, matches: Matcher, i: nat)
    requires Eligible(src) && src.location == ""
    requires i < |rules| && matches(rules[i].pattern, src.summary)
    requires forall j :: 0 <= j < i ==> !matches(rules[j].pattern, src.summary)
    requires Representable(src, Pad(rules[i].startOffset, rules[i].endOffset))
    ensures Parse(GetEventTime(src, rules, matches).0) == Some(Shifted(ParseOrZero(src.start), rules[i].startOffset))
    ensures Parse(GetEventTime(src, rules, matches).1) == Some(Shifted(ParseOrZero(src.end), rules[i].endOffset))
    ensures GetEventTime(src, rules[..i + 1] + later, matches) == GetEventTime(src, rules, matches)
  {
    FirstMatchIgnoresLaterRules(rules, later, src.summary, matches, i);
    assert (rules[..i + 1] + later)[i] == rules[i];
    GetEventTimeReadsBack(src, rules, matches);
  }

  /** Without a location and without a match, the source strings come back
      byte for byte, whatever their offsets or layout. */
  lemma NoMatchKeepsSourceStrings(src: Event, rules: seq<Rule>, matches: Matcher)
    requires Eligible(src) && src.location == ""
    requires forall j :: 0 <= j < |rules| ==> !matches(rules[j].pattern, src.summary)
    ensures GetEventTime(src, rules, matches) == (src.start, src.end)
  {
  }

  /** `SyncEvent`'s placeholder: none when getEventTime gives an empty start. */
  function SyncEvent(src: Event, rules: seq<Rule>, matches: Matcher): (r: Option<Placeholder>)
    ensures r.Some? <==> Eligible(src)
    ensures r.Some? ==> r.value.summary == BlockSummary
    ensures r.Some? ==> (r.value.start, r.value.end) == GetEventTime(src, rules, matches)
  {
    var (start, end) := GetEventTime(src, rules, matches);
    if start == "" then None else Some(Placeholder(BlockSummary, start, end))
  }

  /** For an event without a location, main.go and calendar/calendar.go
      agree on which events get a placeholder, and on its times whenever a
      rule matches. */
  lemma AgreesWithCalendarWithoutLocation(src: Event, rules: seq<Rule>, matches: Matcher)
    requires src.location == ""
    ensures SyncEvent(src, rules, matches).Some? <==> Calendar.NewEvent(src, rules, matches).Some?
    ensures SyncEvent(src, rules, matches).Some? && FirstMatch(rules, src.summary, matches).Some? ==>
      SyncEvent(src, rules, matches) == Calendar.NewEvent(src, rules, matches)
  {
  }

  function Transform(rules: seq<Rule>, matches: Matcher): Event -> Option<Placeholder> {
    e => SyncEvent(e, rules, matches)
  }

  /** The existsSyncToken argument OnNotify passes: the first
      X-Goog-Resource-State header value is "exists". */
  function ExistsSyncToken(resourceState: seq<string>): bool {
    |resourceState| > 0 && resourceState[0] == "exists"
  }

  /** Where Do's listing starts: the stored token (a missing or non-string
      field reads as ""), or the token of a fresh "from now" listing. */
  function StartToken(hasToken: bool, doc: Option<Doc>, env: Env): (r: Run<string>)
    ensures r.doc == doc
    ensures r.calls == [if hasToken then GetDoc else ListFromNow]
    ensures r.outcome.Done? ==> (hasToken ==> r.outcome == Calendar.ReadToken(doc, env))
    ensures r.outcome.Done? <==> (if hasToken then doc.Some? && !env.getFails else env.listFromNow.Some?)
    ensures !hasToken && r.outcome.Done? ==> r.outcome.value == env.listFromNow.value.nextSyncToken
    ensures !r.outcome.Done? ==> r.outcome == Failed(if hasToken then StoreGetFailed else ListFailed)
  {
    if hasToken then Run(Calendar.ReadToken(doc, env), doc, [GetDoc])
    else
      match env.listFromNow
      case None => Run(Failed(ListFailed), doc, [ListFromNow])
      case Some(listing) => Run(Done(listing.nextSyncToken), doc, [ListFromNow])
  }

  /** `Do`: find the starting token, then list, store and insert (Pass).
      Done carries the created ids joined by ", ". */
  function Do(hasToken: bool, doc: Option<Doc>, env: Env, rules: seq<Rule>, matches: Matcher): (r: Run<string>)
    ensures TokenWrittenBeforeInserts(r.calls)
    ensures |r.calls| >= 1 && r.calls[0] == (if hasToken then GetDoc else ListFromNow)
    ensures forall j :: 1 <= j < |r.calls| ==> r.calls[j] != ListFromNow && r.calls[j] != GetDoc
    ensures r.outcome.Failed? ==> r.doc == doc
    ensures r.outcome.Failed? ==> forall j :: 0 <= j < |r.calls| ==> !r.calls[j].Insert?
    ensures !r.outcome.Failed? ==>
      && env.listSince.Some?
      && Calendar.ReadToken(r.doc, env.(getFails := false)) == Done(env.listSince.value.nextSyncToken)
  {
    var start := StartToken(hasToken, doc, env);
    if !start.outcome.Done? then Run(Failed(start.outcome.failure), doc, start.calls)
    else
      var p := Pass(start.outcome.value, doc, env, rules, matches);
      TokenWrittenAfterPrefix(start.calls, p.calls);
      Run(p.outcome, p.doc, start.calls + p.calls)
  }

  /** The rest of Do once the token is known: list the changes since it,
      store the returned token (an empty one too), then insert a placeholder
      per item. */
  function Pass(token: string, doc: Option<Doc>, env: Env, rules: seq<Rule>, matches: Matcher): (r: Run<string>)
    ensures TokenWrittenBeforeInserts(r.calls)
    ensures |r.calls| >= 1 && r.calls[0] == ListSince(token)
    ensures forall j :: 0 <= j < |r.calls| ==> r.calls[j] != ListFromNow && r.calls[j] != GetDoc
    ensures r.outcome.Failed? ==> r.doc == doc
    ensures r.outcome.Failed? ==> forall j :: 0 <= j < |r.calls| ==> !r.calls[j].Insert?
    ensures !r.outcome.Failed? ==>
      && env.listSince.Some?
      && Calendar.ReadToken(r.doc, env.(getFails := false)) == Done(env.listSince.value.nextSyncToken)
    ensures r.outcome.Done? ==>
      var b := InsertAll(env.listSince.value.items, Transform(rules, matches), env, 0);
      && !b.aborted
      && r.outcome == Done(Join(b.ids, ", "))
      && r.calls == [ListSince(token), UpdateToken(env.listSince.value.nextSyncToken)] + b.calls
  {
    match env.listSince
    case None => Run(Failed(ListFailed), doc, [ListSince(token)])
    case Some(listing) =>
      var head := [ListSince(token), UpdateToken(listing.nextSyncToken)];
      match UpdateField(doc, env, TokenField, Str(listing.nextSyncToken))
      case None => Run(Failed(StoreUpdateFailed), doc, head)
      case Some(d) =>
        var b := InsertAll(listing.items, Transform(rules, matches), env, 0);
        assert head == [ListSince(token)] + [UpdateToken(listing.nextSyncToken)];
        TokenWrittenFirst([ListSince(token)], listing.nextSyncToken, b.calls);
        assert forall j :: 0 <= j < |b.calls| ==> b.calls[j].Insert?;
        Run(if b.aborted then Aborted(InsertFailed) else Done(Join(b.ids, ", ")), Some(d), head + b.calls)
  }

  /** `OnNotify`: derive existsSyncToken from the request headers and run Do. */
  function OnNotify(resourceState: seq<string>, doc: Option<Doc>, env: Env, rules: seq<Rule>, matches: Matcher): Run<string> {
    Do(ExistsSyncToken(resourceState), doc, env, rules, matches)
  }

  /** A notification bootstraps from a "from now" listing exactly when its
      resource state is missing or is not "exists"; only a notification
      whose state is "exists" reads the store. */
  lemma BootstrapUnlessExists(resourceState: seq<string>, doc: Option<Doc>, env: Env, rules: seq<Rule>, matches: Matcher)
    ensures var calls := OnNotify(resourceState, doc, env, rules, matches).calls;
      && (ListFromNow in calls <==> !(|resourceState| > 0 && resourceState[0] == "exists"))
      && (GetDoc in calls <==> |resourceState| > 0 && resourceState[0] == "exists")
  {
    var hasToken := ExistsSyncToken(resourceState);
    var calls := Do(hasToken, doc, env, rules, matches).calls;
    assert calls[0] == (if hasToken then GetDoc else ListFromNow);
    assert forall j :: 0 <= j < |calls| ==> calls[j] != (if hasToken then ListFromNow else GetDoc);
  }

  /** A completed Pass inserts exactly the placeholders of the listed items
      in order and answers with the ids the inserts created, in that order. */
  lemma PassReturnsIdsInItemOrder(token: string, doc: Option<Doc>, env: Env, rules: seq<Rule>, matches: Matcher)
    requires Pass(token, doc, env, rules, matches).outcome.Done?
    ensures env.listSince.Some?
    ensures var items := env.listSince.value.items;
      var b := InsertAll(items, Transform(rules, matches), env, 0);
      var r := Pass(token, doc, env, rules, matches);
      && r.calls == [ListSince(token), UpdateToken(env.listSince.value.nextSyncToken)]
                    + Inserts(Targets(items, Transform(rules, matches)))
      && r.outcome.value == Join(b.ids, ", ")
      && |b.ids| == |Targets(items, Transform(rules, matches))|
      && forall j :: 0 <= j < |b.ids| ==> env.insertReply(j) == Some(b.ids[j])
  {
    var b := InsertAll(env.listSince.value.items, Transform(rules, matches), env, 0);
    assert InsertsFor(b, Targets(env.listSince.value.items, Transform(rules, matches)), env, 0);
  }

  /** Once the starting token is known, Do is its first call followed by Pass. */
  lemma DoRunsPass(hasToken: bool, doc: Option<Doc>, env: Env, rules: seq<Rule>, matches: Matcher)
    requires StartToken(hasToken, doc, env).outcome.Done?
    ensures var p := Pass(StartToken(hasToken, doc, env).outcome.value, doc, env, rules, matches);
      Do(hasToken, doc, env, rules, matches) == Run(p.outcome, p.doc, [if hasToken then GetDoc else ListFromNow] + p.calls)
  {
  }

  /** With no changed items the pass stores the token and answers "". */
  lemma DoEmptyListing(hasToken: bool, doc: Option<Doc>, env: Env, rules: seq<Rule>, matches: Matcher)
    requires StartToken(hasToken, doc, env).outcome.Done?
    requires env.listSince.Some? && env.listSince.value.items == []
    requires doc.Some? && !env.updateFails
    ensures Do(hasToken, doc, env, rules, matches).outcome == Done("")
  {
  }
}

=== FILE: naive.dfy ===
/** cmd/naive/qiita/notify.go: the earliest variant. The transform pads
    ±30 minutes only for events with a location and otherwise re-formats
    the times; the handler discards every error, so a failed call leaves a
    nil reply that the next line dereferences. */
module NaiveNotify {
  import opened Base
  import opened GoTime
  import opened Events
  import opened Cloud

  /** The pad of the naive newEvent: ±30 minutes with a location, none without. */
  function NaivePad(src: Event): Pad {
    if src.location != "" then Pad(-HalfHour, HalfHour) else Pad(0, 0)
  }

  /** `newEvent`: None for non-confirmed, all-day and weekend events;
      otherwise a "ブロック" placeholder with the (padded) times re-formatted. */
  function NewEvent(src: Event): (r: Option<Placeholder>)
    ensures r.Some? <==> Eligible(src)
    ensures r.Some? ==> r.value.summary == BlockSummary
  {
    if !Eligible(src) then None else Some(Padded(src, NaivePad(src)))
  }

  /** A time string the layout writes back unchanged: it parses, its offset
      minutes are below 60, and it is not the offset "-00:00". */
  predicate Canonical(s: string) {
    && Parse(s).Some?
    && Num2(s, 23) < 60
    && (s[19] == '-' ==> Num2(s, 20) + Num2(s, 23) > 0)
  }

  /** Without a location the placeholder times are the source strings,
      byte for byte, when those are already canonical. */
  lemma NoLocationOnlyReformats(src: Event)
    requires Eligible(src) && src.location == ""
    requires Canonical(src.start) && Canonical(src.end)
    ensures NewEvent(src) == Some(Placeholder(BlockSummary, src.start, src.end))
  {
    FormatParse(src.start);
    FormatParse(src.end);
    assert AddMinutes(ParseOrZero(src.start), 0) == ParseOrZero(src.start);
    assert AddMinutes(ParseOrZero(src.end), 0) == ParseOrZero(src.end);
  }

  /** With a location the placeholder spans from 30 minutes before the
      start to 30 minutes after the end. */
  lemma LocationPadsHalfHour(src: Event)
    requires Eligible(src) && src.location != ""
    requires Representable(src, Pad(-HalfHour, HalfHour))
    ensures Parse(NewEvent(src).value.start) == Some(Shifted(ParseOrZero(src.start), -30))
    ensures Parse(NewEvent(src).value.end) == Some(Shifted(ParseOrZero(src.end), 30))
    ensures Parse(NewEvent(src).value.start).value.offset == ParseOrZero(src.start).offset
  {
    PaddedReadsBack(src, NaivePad(src));
  }

  function Transform(): Event -> Option<Placeholder> {
    e => NewEvent(e)
  }

  /** The X-Goog-Resource-State header's first value is "sync". */
  predicate SyncState(resourceState: seq<string>) {
    |resourceState| > 0 && resourceState[0] == "sync"
  }

  /** `OnNotify`: on the "sync" state, only the "from now" listing; otherwise
      a listing with the empty token and an insert per placeholder. A failed
      call panics on the nil reply. The store is never touched. */
  function OnNotify(resourceState: seq<string>, doc: Option<Doc>, env: Env): (r: Run<()>)
    ensures r.doc == doc
    ensures forall j :: 0 <= j < |r.calls| ==> !r.calls[j].GetDoc? && !r.calls[j].UpdateToken? && !r.calls[j].SetDoc?
    ensures !r.outcome.Failed?
    ensures r.outcome.Aborted? ==> r.outcome.failure == NilDereference
  {
    if SyncState(resourceState) then
      Run(if env.listFromNow.None? then Aborted(NilDereference) else Done(()), doc, [ListFromNow])
    else
      match env.listSince
      case None => Run(Aborted(NilDereference), doc, [ListSince("")])
      case Some(listing) =>
        var b := InsertAll(listing.items, Transform(), env, 0);
        assert forall j :: 0 <= j < |b.calls| ==> b.calls[j].Insert?;
        Run(if b.aborted then Aborted(NilDereference) else Done(()), doc, [ListSince("")] + b.calls)
  }

  /** A "sync" notification fetches the initial listing and processes no
      event; any other lists with the empty token, never from now. */
  lemma SyncStateOnlyLists(resourceState: seq<string>, doc: Option<Doc>, env: Env)
    ensures SyncState(resourceState) ==> OnNotify(resourceState, doc, env).calls == [ListFromNow]
    ensures !SyncState(resourceState) ==>
      && OnNotify(resourceState, doc, env).calls[0] == ListSince("")
      && ListFromNow !in OnNotify(resourceState, doc, env).calls
  {
    if !SyncState(resourceState) {
      var calls := OnNotify(resourceState, doc, env).calls;
      if env.listSince.Some? {
        var b := InsertAll(env.listSince.value.items, Transform(), env, 0);
        assert calls == [ListSince("")] + b.calls;
        assert forall j :: 0 <= j < |b.calls| ==> b.calls[j].Insert?;
      }
    }
  }

  /** A non-"sync" notification whose inserts all succeed inserts exactly the
      placeholders of the listed items, in order. */
  lemma NotifyInsertsTargets(resourceState: seq<string>, doc: Option<Doc>, env: Env)
    requires !SyncState(resourceState)
    requires OnNotify(resourceState, doc, env).outcome.Done?
    ensures env.listSince.Some?
    ensures OnNotify(resourceState, doc, env).calls
            == [ListSince("")] + Inserts(Targets(env.listSince.value.items, Transform()))
  {
  }
}

=== FILE: scenarios.dfy ===
/** Concrete placeholders for concrete source events, worked through the
    codec, the weekday rule and the pads. */
module Scenarios {
  import opened Base
  import opened Civil
  import opened GoTime
  import opened Events
  import Calendar
  import MainApp

  /** The wall clock at hour:minute on 2024-06-10 (a Monday) in +09:00. */
  function JuneTenth(hour: int, minute: int): Fields
    requires 0 <= hour < 24 && 0 <= minute < 60
  {
    Fields(Date(2024, 6, 10), hour, minute, 0, 540)
  }

  /** The layout string for JuneTenth(hour, minute). */
  function JuneTenthAt(hour: int, minute: int): string
    requires 0 <= hour < 24 && 0 <= minute < 60
  {
    Layout(2024, 6, 10, hour, minute, 0, '+', 9, 0)
  }

  lemma JuneTenthLayout(hour: int, minute: int)
    requires 0 <= hour < 24 && 0 <= minute < 60
    ensures Layout(2024, 6, 10, hour, minute, 0, '+', 9, 0)
            == "2024-06-10T" + Two(hour) + ":" + Two(minute) + ":00+09:00"
  {
    assert Four(2024) == "2024";
    assert Two(6) == "06" && Two(10) == "10" && Two(0) == "00" && Two(9) == "09";
  }

  /** The four wall clocks of the Monday meeting, written out. */
  lemma NineOClock()
    ensures JuneTenthAt(9, 0) == "2024-06-10T09:00:00+09:00"
  {
    JuneTenthLayout(9, 0);
    assert Two(9) == "09";
  }

  lemma TenOClock()
    ensures JuneTenthAt(10, 0) == "2024-06-10T10:00:00+09:00"
  {
    JuneTenthLayout(10, 0);
    assert Two(10) == "10" && Two(0) == "00";
  }

  lemma HalfPastEight()
    ensures JuneTenthAt(8, 30) == "2024-06-10T08:30:00+09:00"
  {
    JuneTenthLayout(8, 30);
    assert Two(8) == "08" && Two(30) == "30";
  }

  lemma HalfPastTen()
    ensures JuneTenthAt(10, 30) == "2024-06-10T10:30:00+09:00"
  {
    JuneTenthLayout(10, 30);
    assert Two(10) == "10" && Two(30) == "30";
  }

  /** The string for JuneTenth(hour, minute) parses to that wall clock. */
  lemma ParseJuneTenth(hour: int, minute: int)
    requires 0 <= hour < 24 && 0 <= minute < 60
    ensures var s := Layout(2024, 6, 10, hour, minute, 0, '+', 9, 0);
      && Parse(s) == Some(FromFields(JuneTenth(hour, minute)))
      && Num2(s, 23) < 60 && s[19] == '+'
  {
    var s := Layout(2024, 6, 10, hour, minute, 0, '+', 9, 0);
    ParseLayout(2024, 6, 10, hour, minute, 0, '+', 9, 0);
    assert FieldsIn(s) == JuneTenth(hour, minute);
    assert DaysInMonth(2024, 6) == 30;
    assert InRange(s);
  }

  lemma JuneTenthIsMonday(hour: int, minute: int)
    requires 0 <= hour < 24 && 0 <= minute < 60
    ensures WeekdayOf(FromFields(JuneTenth(hour, minute))) == Monday
  {
    var f := JuneTenth(hour, minute);
    assert DayNumber(f.date) == 739046 by {
      assert DaysBeforeYear(2024) == 738885;
      assert DaysBeforeMonth(2024, 6) == 152;
    }
    var sod := 3600 * hour + 60 * minute;
    var t := FromFields(f);
    DivUnique((739046 * SecondsPerDay + sod - 60 * 540) * NanosPerSecond, NanosPerSecond,
              739046 * SecondsPerDay + sod - 60 * 540, 0);
    assert LocalSeconds(t) == 739046 * SecondsPerDay + sod;
    DivUnique(LocalSeconds(t), SecondsPerDay, 739046, sod);
  }

  lemma JuneTenthWeekday(hour: int, minute: int)
    requires 0 <= hour < 24 && 0 <= minute < 60
    ensures !OnWeekend(ParseOrZero(Layout(2024, 6, 10, hour, minute, 0, '+', 9, 0)))
  {
    ParseJuneTenth(hour, minute);
    JuneTenthIsMonday(hour, minute);
  }

  /** Moving the wall clock by whole minutes within the day moves the instant
      by as many minutes. */
  lemma JuneTenthShift(hour: int, minute: int, hour': int, minute': int)
    requires 0 <= hour < 24 && 0 <= minute < 60 && 0 <= hour' < 24 && 0 <= minute' < 60
    ensures FromFields(JuneTenth(hour', minute'))
            == Shifted(FromFields(JuneTenth(hour, minute)), 60 * (hour' - hour) + (minute' - minute))
  {
  }

  /** Padding JuneTenth(hour, minute) by m minutes, landing at hour':minute'
      on the same day, is written as the string for hour':minute'. */
  lemma PadJuneTenth(hour: int, minute: int, m: int, hour': int, minute': int)
    requires 0 <= hour < 24 && 0 <= minute < 60 && 0 <= hour' < 24 && 0 <= minute' < 60
    requires m == 60 * (hour' - hour) + (minute' - minute)
    ensures Format(AddMinutes(ParseOrZero(JuneTenthAt(hour, minute)), m)) == JuneTenthAt(hour', minute')
  {
    var t := ParseOrZero(JuneTenthAt(hour, minute));
    ParseJuneTenth(hour, minute);
    assert t == FromFields(JuneTenth(hour, minute));
    assert AddMinutes(t, m) == Shifted(t, m);
    JuneTenthShift(hour, minute, hour', minute');
    ParseJuneTenth(hour', minute');
    assert Shifted(t, m) == Parse(JuneTenthAt(hour', minute')).value;
    FormatParse(JuneTenthAt(hour', minute'));
  }

  lemma MeetingAt(matches: Matcher, location: string)
    ensures var src := Event("e1", "定例", Confirmed, JuneTenthAt(9, 0), JuneTenthAt(10, 0), location);
      && Eligible(src)
      && Padded(src, Pad(-HalfHour, HalfHour)) == Placeholder(BlockSummary, JuneTenthAt(8, 30), JuneTenthAt(10, 30))
  {
    var src := Event("e1", "定例", Confirmed, JuneTenthAt(9, 0), JuneTenthAt(10, 0), location);
    LayoutChars(2024, 6, 10, 9, 0, 0, '+', 9, 0);
    JuneTenthWeekday(9, 0);
    JuneTenthWeekday(10, 0);
    PadJuneTenth(9, 0, -30, 8, 30);
    PadJuneTenth(10, 0, 30, 10, 30);
  }

  /** A one-hour confirmed meeting on a Monday morning, no rule matching:
      the placeholder runs from 08:30 to 10:30 in the source offset. */
  lemma MondayMeetingDefaultPad(matches: Matcher)
    ensures var src := Event("e1", "定例", Confirmed, "2024-06-10T09:00:00+09:00", "2024-06-10T10:00:00+09:00", "");
      Calendar.NewEvent(src, [], matches)
      == Some(Placeholder(BlockSummary, "2024-06-10T08:30:00+09:00", "2024-06-10T10:30:00+09:00"))
  {
    NineOClock(); TenOClock(); HalfPastEight(); HalfPastTen();
    MeetingAt(matches, "");
    var src := Event("e1", "定例", Confirmed, JuneTenthAt(9, 0), JuneTenthAt(10, 0), "");
    assert Calendar.PadFor(src.summary, [], matches) == Pad(-HalfHour, HalfHour);
    assert Calendar.NewEvent(src, [], matches) == Some(Placeholder(BlockSummary, JuneTenthAt(8, 30), JuneTenthAt(10, 30)));
  }

  /** The same meeting in main.go, with no location and no rule, keeps its
      times byte for byte; with a location it is padded like the default. */
  lemma MondayMeetingMainApp(matches: Matcher)
    ensures var src := Event("e1", "定例", Confirmed, "2024-06-10T09:00:00+09:00", "2024-06-10T10:00:00+09:00", "");
      && MainApp.GetEventTime(src, [], matches) == ("2024-06-10T09:00:00+09:00", "2024-06-10T10:00:00+09:00")
      && MainApp.GetEventTime(src.(location := "本社"), [], matches)
         == ("2024-06-10T08:30:00+09:00", "2024-06-10T10:30:00+09:00")
  {
    NineOClock(); TenOClock(); HalfPastEight(); HalfPastTen();
    MeetingAt(matches, "");
    MeetingAt(matches, "本社");
    var src := Event("e1", "定例", Confirmed, JuneTenthAt(9, 0), JuneTenthAt(10, 0), "");
    assert MainApp.PadOf(src, [], matches).None?;
    assert MainApp.GetEventTime(src, [], matches) == (JuneTenthAt(9, 0), JuneTenthAt(10, 0));
    var located := src.(location := "本社");
    assert MainApp.PadOf(located, [], matches) == Some(Pad(-HalfHour, HalfHour));
    assert MainApp.GetEventTime(located, [], matches) == (JuneTenthAt(8, 30), JuneTenthAt(10, 30));
  }

  /** Thirty minutes before the zero time is 23:30 on 31 December of year 0,
      the date the default placeholder of an unparsable event starts on. */
  lemma HalfHourBeforeZeroTime()
    ensures FieldsOf(Shifted(ZeroTime, -30)) == Fields(Date(0, 12, 31), 23, 30, 0, 0)
  {
    var z := Shifted(ZeroTime, -30);
    DivUnique(z.nanos, NanosPerSecond, -1800, 0);
    assert LocalSeconds(z) == -1800;
    DivUnique(-1800, SecondsPerDay, -1, 84600);
    DivUnique(84600, 3600, 23, 1800);
    DivUnique(1800, 60, 30, 0);
    DivUnique(84600, 60, 1410, 0);
    assert DayNumber(Date(0, 12, 31)) == -1 by {
      assert DaysBeforeYear(0) == -366;
      assert DaysBeforeMonth(0, 12) == 335;
    }
    CivilFromDayNumber(Date(0, 12, 31));
    assert CivilFromDays(-1) == Date(0, 12, 31);
  }

  /** Times that do not parse are read as the zero time, a Monday, so the
      event is not excluded: its default placeholder starts 30 minutes before
      0001-01-01T00:00:00Z. */
  lemma UnparsableTimesReadAsZeroTime(src: Event, matches: Matcher)
    requires src.status == Confirmed && src.start != ""
    requires Parse(src.start).None? && Parse(src.end).None?
    ensures Calendar.NewEvent(src, [], matches).Some?
    ensures Parse(Calendar.NewEvent(src, [], matches).value.start) == Some(Shifted(ZeroTime, -30))
    ensures Parse(Calendar.NewEvent(src, [], matches).value.end) == Some(Shifted(ZeroTime, 30))
  {
    assert ParseOrZero(src.start) == ZeroTime && ParseOrZero(src.end) == ZeroTime;
    assert WeekdayOf(ZeroTime) == Monday by {
      assert LocalSeconds(ZeroTime) == 0;
    }
    assert Eligible(src);
    assert Calendar.PadFor(src.summary, [], matches) == Pad(-30, 30);
    assert Representable(src, Pad(-30, 30)) by {
      assert LocalSeconds(Shifted(ZeroTime, -30)) == -1800;
      assert LocalSeconds(Shifted(ZeroTime, 30)) == 1800;
    }
    Calendar.NewEventReadsBack(src, [], matches);
  }
}
